=== FILE: README.md ===
# jp_anki_builder candidate-word pipeline in Dafny

This project models the word-level core of jp_anki_builder, a tool that turns
screenshots of Japanese text into Anki flash cards. The model covers what
happens to the words between OCR and card building:

- Japanese runs are cut out of OCR text (`extract_candidates`).
- Lemma and surface tokens are paired and one form is chosen per position,
  optionally confirmed by a "word exists" dictionary test (`normalize_text`,
  `_choose_best_candidate`).
- Adjacent tokens are fused into compounds the dictionaries know
  (`_merge_compound_candidates`), through the memoised `word_exists` closure.
- Candidates are collected per OCR text, per image and per run (`run_scan`).
- In review, particles, known words, seen words and manual exclusions are
  dropped, and the seen-word list and known-word list are updated
  (`filter_tokens`, `exclude_seen`, `run_review`, `_append_known_words`).
- Smaller string builders and parsers: deck names and card faces
  (cards.py), meaning lookup and truncation (enrich.py), the reduction of
  JMdict entries to offline records (dict_install.py), and the index-list
  parser and word preview of the command line (cli.py).

Every module is pure and the collaborators the code calls are parameters.
Lists are `seq<string>`. The seen-word set passed to `exclude_seen` is a
`set<string>`. Sets the source builds from lists (the manual exclusions, the
seen words read back, the known words and the words added to them) stay
`seq<string>` and are compared through their values (`Seqs.Elems`), so that
`sorted(set(...))` is a function of the list. The parameters are:

- the tokenizer helpers (`Normalization.Segmenter`);
- the OCR provider (`Scan.OcrProvider`);
- the dictionaries (`string -> bool` tests in `Scan`, lookup functions in
  `Enrich`).

| file | module | source |
|---|---|---|
| wrappers.dfy | Wrappers | `Option` and `Result` |
| seqs.dfy | Seqs | first-seen deduplication (the `seen`-set loops and `dict.fromkeys`), order-preserving filters, flattening |
| text.dfy | Text | `str.strip`, `sep.join`, `str.split`, `str.isdigit`/`int`, `str(n)`, `xs[:n]` |
| sorting.dfy | Sorting | `sorted(set(...))` on strings and on integers |
| tokenize.dfy | Tokenize | tokenize.py |
| filtering.dfy | Filtering | filtering.py |
| dedup.dfy | Dedup | dedup.py |
| normalization.dfy | Normalization | normalization.py |
| scan.dfy | Scan | scan.py |
| review.dfy | Review | review.py |
| cards.dfy | Cards | cards.py |
| enrich.dfy | Enrich | enrich.py |
| dict_install.dfy | DictInstall | dict_install.py |
| cli.dfy | Cli | cli.py |

## Model

| member | source | states |
|---|---|---|
| Seqs.DedupFrom | src/jp_anki_builder/tokenize.py:11-18 | the skip-if-seen loop yields distinct values, exactly the input values not already seen, and is no longer than its input |
| Seqs.DedupFromOrder | src/jp_anki_builder/tokenize.py:11-18 | the loop lists every value at its first occurrence: the output follows the order of first occurrence in the input |
| Seqs.DedupFromSubseq | src/jp_anki_builder/dedup.py:5-9 | the deduplicated list is an order-preserving subsequence of the input |
| Seqs.DedupFromAppend | src/jp_anki_builder/scan.py:102-106 | deduplicating a concatenation is deduplicating the first part, then the second part against everything in the first |
| Seqs.DedupIdempotent | src/jp_anki_builder/scan.py:106 | `dict.fromkeys` applied twice equals applying it once |
| Seqs.DedupFlattenEach | src/jp_anki_builder/scan.py:106-119 | deduplicating each list before concatenating and deduplicating again gives the same as one deduplication of the plain concatenation |
| Seqs.DedupFromWithout | src/jp_anki_builder/review.py:64-65 | dropping a set of values and then deduplicating against a seen-set equals one deduplication against the union |
| Seqs.WithoutDedupFrom | src/jp_anki_builder/review.py:65-68 | removing values after deduplication equals deduplicating against those values too |
| Seqs.DedupFromCovered | src/jp_anki_builder/dedup.py:5-7 | nothing survives when every value is already seen |
| Seqs.NoDupsOnce | src/jp_anki_builder/dedup.py:5-9 | in a duplicate-free list every member occurs exactly once |
| Seqs.WithoutCount | src/jp_anki_builder/filtering.py:28 | a value outside the dropped set keeps its multiplicity |
| Seqs.WithoutIdempotent | src/jp_anki_builder/filtering.py:28 | dropping the same set twice equals dropping it once |
| Text.Strip | src/jp_anki_builder/review.py:23 | `str.strip` gives a slice of the input with only whitespace before and after it, that neither begins nor ends with whitespace and is empty exactly when the input is blank |
| Text.Split | src/jp_anki_builder/cli.py:21 | `str.split(",")` gives at least one piece, no piece holds the separator, and joining the pieces gives the input back |
| Text.SplitJoin | src/jp_anki_builder/cli.py:21 | splitting a join of separator-free pieces gives the pieces back |
| Text.NatToString | src/jp_anki_builder/cli.py:44 | `str(n)` is a string of ASCII digits without leading zero whose decimal value is `n` |
| Text.SplitLines | src/jp_anki_builder/review.py:23 | `str.splitlines` gives lines that hold no line boundary; it gives no line exactly for empty text, and break-free text is its single line |
| Text.SplitLinesBreak | src/jp_anki_builder/review.py:23 | when the first line boundary of the text, any of Python's, is at position `i`, the text before it is the first line and the lines after the boundary follow, "\r\n" counting as one boundary |
| Text.SplitLinesJoin | src/jp_anki_builder/review.py:23-45 | reading back with `splitlines` a non-empty list of break-free lines, each followed by "\n", gives the lines again |
| Text.PyPrefix | src/jp_anki_builder/enrich.py:9 | `xs[:n]` is a prefix of `xs` of length `min(n, len)` for `n >= 0`, and `len + n` clipped at 0 for negative `n` |
| Sorting.SortWords | src/jp_anki_builder/review.py:43 | `sorted(set(xs))` on strings is strictly increasing in code-point order and has exactly the values of `xs` |
| Sorting.SortWordsSetOnly | src/jp_anki_builder/review.py:43 | the sorted list depends only on the set of values |
| Sorting.WordsSortedUnique | src/jp_anki_builder/review.py:35 | two strictly increasing lists with the same values are equal |
| Sorting.SortInts | src/jp_anki_builder/cli.py:30 | `sorted(set(indices))` is strictly increasing and has exactly the values of the indices |
| Sorting.SortIntsSorted | src/jp_anki_builder/cli.py:30 | sorting a strictly increasing list of integers changes nothing |
| Tokenize.Findall | src/jp_anki_builder/tokenize.py:6-10 | every match is non-empty and made of Hiragana, Katakana or CJK code points |
| Tokenize.FindallSound | src/jp_anki_builder/tokenize.py:6-10 | every match is a maximal Japanese run: the characters just outside it are non-Japanese or the text boundary |
| Tokenize.FindallInOrder | src/jp_anki_builder/tokenize.py:6-10 | the matches are the maximal runs the scan finds, in text order, each ending before the next starts |
| Tokenize.FindallComplete | src/jp_anki_builder/tokenize.py:6-10 | every maximal Japanese run of the text is matched |
| Tokenize.ExtractCandidates | src/jp_anki_builder/tokenize.py:9-18 | the candidates are distinct, non-empty, Japanese-only, and exactly the matches |
| Tokenize.ExtractCandidatesRuns | src/jp_anki_builder/tokenize.py:9-18 | a string is a candidate exactly when it is some maximal Japanese run of the text, and candidates follow the order of first occurrence |
| Tokenize.NoJapaneseNoCandidates | src/jp_anki_builder/tokenize.py:6-10 | a text without any Japanese character yields no candidate |
| Filtering.FilterTokens | src/jp_anki_builder/filtering.py:27-28 | the output is an order-preserving subsequence that holds a token exactly when it is in the input, not a particle and not a known word |
| Filtering.FilterTokensKeepsOthers | src/jp_anki_builder/filtering.py:28 | every token that is neither a particle nor known is kept as often as it occurs |
| Filtering.FilterTokensIdempotent | src/jp_anki_builder/filtering.py:28 | filtering twice equals filtering once |
| Filtering.FilterTokensExample | tests/test_filtering.py:4-8 | the particle は and the known word 学生 are removed from 私 は 学生 です |
| Dedup.ExcludeSeen | src/jp_anki_builder/dedup.py:1-11 | the loop with its local seen-set returns the first-seen deduplication against `seen`: no seen word, no repeat |
| Dedup.KeptFacts | src/jp_anki_builder/dedup.py:5-9 | every unseen candidate is kept exactly once, and the result is a subsequence in order of first occurrence |
| Dedup.ExcludeSeenExample | tests/test_dedup.py:4-7 | a seen word and its repeat are both dropped, leaving 勇者 |
| Normalization.ChooseBestCandidate | src/jp_anki_builder/normalization.py:63-82 | without an oracle the lemma is returned, lemma_normalized (0.95) when it differs from the surface and surface_fallback (0.65) otherwise; with one, a confirmed non-empty lemma wins and then a confirmed non-empty surface, both dictionary_validated (0.99); when nothing is confirmed the answer is the no-oracle one; the word is always the lemma or the surface |
| Normalization.FirstExistingOptions | src/jp_anki_builder/normalization.py:73-79 | scanning the preference list finds the lemma if it is confirmed, else the surface if it is confirmed, else nothing |
| Normalization.ChooseWithoutHits | src/jp_anki_builder/normalization.py:80-82 | an oracle that confirms nothing gives the same answer as no oracle |
| Normalization.CandidateAt | src/jp_anki_builder/normalization.py:45-59 | the entry for lemma `i` takes surface `i`, or the lemma when there are fewer surfaces, and carries the method name rule_based, while its word, confidence and reason are those `_choose_best_candidate` gives for that surface and lemma |
| Normalization.FirstPerWord | src/jp_anki_builder/normalization.py:44-50 | the skip-if-seen loop keeps a subsequence of the entries, none of whose chosen words was already seen |
| Normalization.FirstPerWordDedup | src/jp_anki_builder/normalization.py:44-59 | the chosen words emitted are the first-seen deduplication of all chosen words |
| Normalization.FirstPerWordFirstWins | src/jp_anki_builder/normalization.py:48-50 | every emitted entry is the first entry carrying its chosen word |
| Normalization.NormalizeText | src/jp_anki_builder/normalization.py:35-60 | the chosen words are distinct, the output is no longer than the lemma candidates, is a subsequence of the per-position entries, and has the same chosen words |
| Normalization.SurfaceValidatedExample | tests/test_normalization.py:29-38 | when the oracle rejects the lemma 役立つ but confirms the surface 役立たず, the surface is kept as dictionary_validated |
| Scan.MergedFrom | src/jp_anki_builder/scan.py:147-157 | a compound is produced exactly when some adjacent pair at or after the position fuses |
| Scan.MergeCompounds | src/jp_anki_builder/scan.py:146-158 | the compounds are distinct; a string is one exactly when it is the concatenation of tokens `j` and `j + 1` where the left is a candidate, the right is a candidate or ず/ぬ, and the oracle accepts it; fewer than two tokens give none |
| Scan.MergeCompoundsOrder | src/jp_anki_builder/scan.py:158 | compounds are listed in order of their first fusable pair |
| Scan.MergeCompoundsExample | src/jp_anki_builder/scan.py:146-158 | 無駄飯 食い が fuses to 無駄飯食い only, が being no candidate |
| Scan.WordExists | src/jp_anki_builder/scan.py:71-80 | a cached word is answered from the cache; the word is cached with the answer given; the cache gains only that word and keeps every old entry; a cache consistent with the dictionaries stays so, and the answer is then offline-hit or online-hit |
| Scan.MergedFromCached | src/jp_anki_builder/scan.py:146-158 | merging through the memo only grows the cache and keeps old entries |
| Scan.MergedFromCachedAgrees | src/jp_anki_builder/scan.py:71-80 | the memo is transparent: from a consistent cache the merge gives what it gives with the plain dictionary test, and the cache stays consistent |
| Scan.TextsOf | src/jp_anki_builder/scan.py:87-90 | a provider without `extract_text_candidates` yields exactly one text |
| Scan.PrimaryTokens | src/jp_anki_builder/scan.py:95-99 | the surface tokens recorded are those of the first text whose token list is non-empty, or none |
| Scan.ImageCandidates | src/jp_anki_builder/scan.py:96-106 | the image's candidates are distinct, are exactly the candidates of any of its texts, and follow the order in which they first appear text by text |
| Scan.ScanImage | src/jp_anki_builder/scan.py:86-117 | the record names its image, holds the primary surface tokens and the normalizer entries of all texts, its text is the first OCR text or "", its alternates are `texts[1:6]` (at most five), and its candidates are the distinct candidates of all texts in order of first appearance |
| Scan.OnlineDictionary | src/jp_anki_builder/scan.py:64-69 | "off" is a dictionary that knows no word, "jisho" is the online service, any other mode is an error |
| Scan.Records | src/jp_anki_builder/scan.py:86-117 | one record per image, in image order, record `k` being the scan of image `k`'s OCR texts |
| Scan.RunCandidates | src/jp_anki_builder/scan.py:119 | the run's candidates are distinct, exactly those of some image, and in order of first appearance image by image |
| Scan.RunScan | src/jp_anki_builder/scan.py:49-119 | no image is the no-image-files error, checked before the online mode, and an unknown mode is the unsupported-mode error; otherwise the records are the scans of the images with the offline-or-online dictionary test of the chosen mode, the image count is the number of images and of records, and the run's candidates are distinct, exactly the candidates of some image, and in order of first appearance |
| Scan.RunScanCandidates | src/jp_anki_builder/scan.py:106-119 | deduplicating per image first does not change the run's list: it is the first-seen deduplication of all raw candidates, image by image, and follows their order of first appearance |
| Review.LoadWordList | src/jp_anki_builder/review.py:20-23 | a word is loaded exactly when it is a non-blank stripped line |
| Review.LoadWordListStripped | src/jp_anki_builder/review.py:23 | loaded words are non-empty and already stripped |
| Review.AppendKnownWords | src/jp_anki_builder/review.py:39-45 | nothing is written for no word; otherwise the file is strictly sorted and holds exactly the existing words and the new ones |
| Review.AppendKnownWordsIdempotent | src/jp_anki_builder/review.py:20-45 | appending the same stripped, break-free words again to the file just written, read back with `splitlines`, writes the same list |
| Review.RunReview | src/jp_anki_builder/review.py:62-87 | the approved list is the first-seen deduplication of the candidates against particles, known, seen and manually excluded words, so it is duplicate-free, a subsequence, and holds exactly the candidates outside those sets; the initial count is the number of candidates; excluded_manual is the sorted exclusion set; the saved seen list is the sorted union of the old seen words and the approved ones; the known-word file changes only when asked to save |
| Review.ApprovedIsDedup | src/jp_anki_builder/review.py:64-68 | filtering, then excluding seen words and repeats, then dropping manual exclusions equals one deduplication against everything dropped |
| Review.ReviewAgainApprovesNothing | src/jp_anki_builder/review.py:64-83 | reviewing the same candidates again with the updated seen words approves nothing |
| Review.ApprovedExample | tests/test_review_command.py:11-46 | with 勇者 known, 勇者 and the particle は are dropped and 冒険 alone is approved |
| Cards.DeckName | src/jp_anki_builder/cards.py:1-7 | the name is the source, then "::Volume" and the volume exactly when a volume is given, then "::Chapter" and the chapter exactly when a chapter is given |
| Cards.DeckNameStartsWithSource | src/jp_anki_builder/cards.py:1-7 | the name starts with the source and equals it exactly when neither volume nor chapter is given |
| Cards.DeckNameExample | tests/test_cards.py:4-5 | MangaA, 02, 07 give MangaA::Volume02::Chapter07 |
| Cards.JoinAppend | src/jp_anki_builder/cards.py:7 | joining one more part appends the separator and the part |
| Cards.WordSide | src/jp_anki_builder/cards.py:12 | the word side starts with the word; it is the word alone exactly when there is no reading, and otherwise what follows the word is `<br>` and the reading |
| Cards.BidirectionalFields | src/jp_anki_builder/cards.py:10-16 | exactly two notes, the second being the first with its sides swapped; the first has the word side in front and the meanings joined by "; " behind |
| Cards.BidirectionalFieldsExample | tests/test_cards.py:8-12 | 冒険, ぼうけん, adventure give the front 冒険<br>ぼうけん and the reverse front adventure |
| Enrich.EnrichWord | src/jp_anki_builder/enrich.py:1-10 | the word is kept; without a found record the reading is "" and there is no meaning; otherwise the record is the offline one when found, else the online one, a missing reading is "", and the meanings are the prefix of the record's that Python's `[:max_meanings]` keeps: `min(max_meanings, n)` of `n` meanings for a non-negative bound, and all but the last `-max_meanings` (none if fewer) for a negative one |
| Enrich.OfflineFirst | src/jp_anki_builder/enrich.py:2 | the online dictionary does not matter when the offline one has the word |
| Enrich.EnrichKeepsShortMeanings | src/jp_anki_builder/enrich.py:9 | meanings are kept in full when there are no more than `max_meanings` |
| Enrich.EnrichExample | tests/test_enrich.py:4-17 | offline knows nothing, online has four meanings, three are kept with the online reading |
| DictInstall.CollectFromDedup | src/jp_anki_builder/dict_install.py:79-88 | the gloss loop appends the first-seen deduplication of the non-blank texts not already collected |
| DictInstall.ExtractEnglishGlossesDedup | src/jp_anki_builder/dict_install.py:78-88 | the glosses are the first-seen deduplication of the non-blank stripped texts of the English glosses |
| DictInstall.ExtractEnglishGlossesMembers | src/jp_anki_builder/dict_install.py:78-88 | the glosses are distinct, non-empty, and exactly the stripped texts of glosses whose language is absent, "" or "eng" |
| DictInstall.FormTextsMembers | src/jp_anki_builder/dict_install.py:58-59 | the forms of a list of elements are exactly their non-blank stripped texts |
| DictInstall.ReadingFor | src/jp_anki_builder/dict_install.py:72 | with reading forms the reading is one of them, and it equals the form exactly when the form is a reading form, being the first reading form otherwise; without reading forms it is "" |
| DictInstall.RecordForContents | src/jp_anki_builder/dict_install.py:60-73 | the stored record holds the form's reading and the prefix of the English glosses that `[:max_meanings]` keeps, with its exact length for both signs of the bound |
| DictInstall.AddForms | src/jp_anki_builder/dict_install.py:69-73 | the stored forms become the old ones plus the entry's forms; old records are kept and each new form gets the entry's record |
| DictInstall.AddEntry | src/jp_anki_builder/dict_install.py:57-73 | a form is stored after the entry exactly when it was stored before or the entry has an English gloss and the form is one of its forms (kanji forms, else reading forms); old records are never overwritten |
| DictInstall.BuildFromKeys | src/jp_anki_builder/dict_install.py:53-75 | a form is in the payload exactly when some entry defines it, and a form stored before is never overwritten |
| DictInstall.BuildFromFirstWins | src/jp_anki_builder/dict_install.py:69-73 | the first entry that defines a form decides its record |
| DictInstall.ReadingExample | tests/test_dict_install.py:23-27 | a kanji form takes its first reading, and a kana-only entry is stored under its reading with itself as the reading |
| Cli.ParseChunkMeaning | src/jp_anki_builder/cli.py:21-29 | a chunk is skipped exactly when it is blank; a non-blank chunk whose stripped text is not all digits raises the invalid-value error with that text; a digit string outside `[1, max_value]` raises the out-of-range error with its value; an index it names is its decimal value and lies in `[1, max_value]` |
| Cli.ParseChunkDecimal | src/jp_anki_builder/cli.py:22-29 | the decimal string of an index in range parses as that index |
| Cli.ParseChunksOk | src/jp_anki_builder/cli.py:21-29 | the chunk loop succeeds exactly when every chunk parses, and then yields exactly the indices the chunks name |
| Cli.ParseChunksFirstError | src/jp_anki_builder/cli.py:21-28 | on failure, the error raised is that of the first chunk that does not parse |
| Cli.ParseChunksAll | src/jp_anki_builder/cli.py:21-29 | chunks that all name an index yield those indices in order |
| Cli.ParseSelectedIndices | src/jp_anki_builder/cli.py:14-30 | a blank input selects nothing; a successful parse is strictly increasing with every index in `[1, max_value]` |
| Cli.ParseSelectedIndicesOk | src/jp_anki_builder/cli.py:14-30 | a non-blank input is accepted exactly when every chunk parses, and the selection is then exactly the set of indices the chunks name |
| Cli.ParseSelectedIndicesError | src/jp_anki_builder/cli.py:21-28 | a rejected input reports the error of its first bad chunk, every earlier chunk having parsed |
| Cli.ParseSelectedIndicesRoundTrip | src/jp_anki_builder/cli.py:14-30 | writing a strictly increasing selection as comma-separated decimals and parsing it gives the selection back |
| Cli.FormatWordPreviewCases | src/jp_anki_builder/cli.py:37-45 | "(none)" for no word; the ", "-join of all words when they fit; otherwise the join of the first `limit` words followed by ", (+k more)", the shown and counted words adding up to the whole list |

## Left out

- OCR (ocr.py) is not part of this model. Its file and subprocess I/O and external libraries are replaced by the `Scan.OcrProvider` parameter. scan.py:57-62 calls `build_ocr_provider` with keyword arguments that ocr.py does not accept.
- The dictionary backends in dictionary.py and the Jisho client are not part of this model. They become plain `string -> bool` tests (`Scan.Dictionaries`) and `string -> Option<Entry>` lookups (`Enrich`). scan.py:76-78 passes `exact_match=True`, which the shown backends do not take.
- Reading and writing files, JSON and XML are left out: `_collect_images`, directory creation, artifact writing, `_load_seen_words`, `_save_seen_words`, the download and parsing in `install_jmdict_offline_json`. Text files are given as their lines, the `splitlines` result; only the known-words file is also written back as text and re-read (`Review.FileText`, `Text.SplitLines`).
- build.py, config.py (`RunPaths`), pipeline.py and the Typer command bodies of cli.py are left out. They are card-package writing, path helpers, a stub and prompts/echo. cli.py imports `prepare_review` from review.py, which does not define it.
- The tokenizer helpers `extract_token_sequence`, `extract_candidate_token_sequence` and `is_candidate_token` are not defined in tokenize.py. They are parameters (`Normalization.Segmenter`).
- Text.IsDigit accepts ASCII and full-width digits only. Python's `str.isdigit` also accepts other Unicode decimal digits and superscripts, and `int` accepts the decimal ones. Those characters are outside this model.
- Scan.RunScan: the scan uses the plain dictionary test rather than the memoised closure. `Scan.MergedFromCachedAgrees` proves the two give the same compounds.
- Scan.RunScan: the `normalization_method`, source, run id and OCR settings copied into the artifact are not modelled.
- Review.RunReview: the review artifact's echo of the candidates and the summary's counts beyond `initial_count` are not modelled.
- The concrete scenario of tests/test_review_command.py:11-46 is modelled for the approved list only (`Review.ApprovedExample`).
- Dedup.ExcludeSeen: the method's contract states the result and its freedom from seen words and repeats. Exactly-once and order of first occurrence are stated about the same result by `Dedup.KeptFacts`.
- Review.AppendKnownWordsIdempotent: holds only for words without a line boundary. The file is written with "\n" between words and re-read with `splitlines`, so a word holding a line break comes back as several words.
- Default arguments are explicit parameters: `max_meanings=3` of `enrich_word` and `_build_offline_payload_from_jmdict_xml_bytes`, `limit=WORD_PREVIEW_LIMIT` of `_format_word_preview`, `word_exists=None` of `normalize_text`, `online_dict="off"` of `run_scan`, and `exclude=None` and `save_excluded_to_known=False` of `run_review`. Each call states the value; `Cli.WordPreviewLimit` records the preview default.
- Enrich.EnrichWord: a record's "reading" and "meanings" values are modelled as a string and a list of strings. Other JSON value types are outside this model.
- Two tests contradict the code and are not modelled:
  - tests/test_tokenize.py expects particle splitting and a `_build_word_tokenizer` hook that tokenize.py does not have.
  - tests/test_build_command.py:65 expects a deck name "Vol02::Ch07", while cards.py:4-5 writes "Volume" and "Chapter".
- Floating-point confidences are modelled as the exact decimals 0.99, 0.95 and 0.65.

=== FILE: cards.dfy ===
/** cards.py: the deck name of a source, volume and chapter, and the two
    notes (word to meaning, meaning to word) built for one word. */
module Cards {
  import opened Wrappers
  import opened Text

  /** Python truthiness of an optional string: present and non-empty. */
  predicate Given(o: Option<string>) {
    o.Some? && o.value != ""
  }

  /** The deck-name segments: the source, then a "Volume" segment when a
      volume is given, then a "Chapter" segment when a chapter is given. */
  function DeckParts(source: string, volume: Option<string>, chapter: Option<string>): (parts: seq<string>)
    ensures 1 <= |parts| <= 3 && parts[0] == source
  {
    [source]
    + (if Given(volume) then ["Volume" + volume.value] else [])
    + (if Given(chapter) then ["Chapter" + chapter.value] else [])
  }

  /** `build_deck_name(source, volume, chapter)`: the segments joined by "::".
      The name is the source, followed by "::Volume<v>" exactly when a volume
      is given and then by "::Chapter<c>" exactly when a chapter is given. */
  function DeckName(source: string, volume: Option<string>, chapter: Option<string>): (r: string)
    ensures r == source
               + (if Given(volume) then "::Volume" + volume.value else "")
               + (if Given(chapter) then "::Chapter" + chapter.value else "")
  {
    DeckPartsJoined(source, volume, chapter);
    Join(DeckParts(source, volume, chapter), "::")
  }

  lemma DeckPartsJoined(source: string, volume: Option<string>, chapter: Option<string>)
    ensures Join(DeckParts(source, volume, chapter), "::") == source
               + (if Given(volume) then "::Volume" + volume.value else "")
               + (if Given(chapter) then "::Chapter" + chapter.value else "")
  {
    var withVolume := [source] + (if Given(volume) then ["Volume" + volume.value] else []);
    JoinAppend([source], "Volume" + (if Given(volume) then volume.value else ""), "::");
    if Given(chapter) {
      JoinAppend(withVolume, "Chapter" + chapter.value, "::");
    }
  }

  /** Joining one more part appends the separator and the part. */
  lemma {:induction false} JoinAppend(parts: seq<string>, last: string, sep: string)
    ensures Join(parts + [last], sep) == if parts == [] then last else Join(parts, sep) + sep + last
    decreases |parts|
  {
    if |parts| > 1 {
      assert (parts + [last])[1..] == parts[1..] + [last];
      JoinAppend(parts[1..], last, sep);
    } else if |parts| == 1 {
      assert (parts + [last])[1..] == [last];
    }
  }

  /** tests/test_cards.py:4-5. */
  lemma DeckNameExample()
    ensures DeckName("MangaA", Some("02"), Some("07")) == "MangaA::Volume02::Chapter07"
  {
  }

  /** A deck name ends right after the source when neither a volume nor a
      chapter is given, and its first segment is always the source. */
  lemma DeckNameStartsWithSource(source: string, volume: Option<string>, chapter: Option<string>)
    ensures |DeckName(source, volume, chapter)| >= |source|
    ensures DeckName(source, volume, chapter)[..|source|] == source
    ensures DeckName(source, volume, chapter) == source <==> !Given(volume) && !Given(chapter)
  {
    var r := DeckName(source, volume, chapter);
    assert r == source + r[|source|..];
    if Given(volume) || Given(chapter) {
      assert |r| > |source|;
    }
  }

  datatype Note = Note(front: string, back: string)

  /** The word side of a card: the word, with its reading on a second line
      when there is one. */
  function WordSide(word: string, reading: string): (r: string)
    ensures |r| >= |word| && r[..|word|] == word
    ensures r == word <==> reading == ""
    ensures reading != "" ==> r[|word|..] == "<br>" + reading
  {
    if reading != "" then word + "<br>" + reading else word
  }

  /** `build_bidirectional_fields(word, reading, meanings)`: exactly two notes,
      the second being the first with its two sides swapped; the meaning side
      joins the meanings with "; ". */
  function BidirectionalFields(word: string, reading: string, meanings: seq<string>): (r: seq<Note>)
    ensures |r| == 2
    ensures r[1] == Note(r[0].back, r[0].front)
    ensures r[0].front == WordSide(word, reading) && r[0].back == Join(meanings, "; ")
  {
    var meaningText := Join(meanings, "; ");
    var front := WordSide(word, reading);
    [Note(front, meaningText), Note(meaningText, front)]
  }

  /** tests/test_cards.py:8-12. */
  lemma BidirectionalFieldsExample()
    ensures var notes := BidirectionalFields("冒険", "ぼうけん", ["adventure"]);
            |notes| == 2 && notes[0].front == "冒険<br>ぼうけん" && notes[1].front == "adventure"
  {
  }
}

=== FILE: cli.dfy ===
/** The two pure helpers of cli.py: the parser of a comma-separated list of
    1-based indices typed at a prompt, and the short preview of a word list
    printed in warnings. */
module Cli {
  import opened Wrappers
  import opened Seqs
  import opened Text
  import opened Sorting

  /** `WORD_PREVIEW_LIMIT`. */
  const WordPreviewLimit: int := 10

  /** The two `ValueError`s of `_parse_selected_indices`: a non-blank chunk
      that is not all digits, and an index outside `[1, max_value]`. */
  datatype IndexError = InvalidIndexValue(part: string) | IndexOutOfRange(index: nat)

  /** One chunk of the input: `None` when it is blank and skipped, else the
      index it names or the error it raises. */
  function ParseChunk(chunk: string, maxValue: int): Result<Option<int>, IndexError> {
    var part := Strip(chunk);
    if part == [] then Ok(None)
    else if !AllDigits(part) then Err(InvalidIndexValue(part))
    else
      var index := DecimalValue(part);
      if index < 1 || index > maxValue then Err(IndexOutOfRange(index)) else Ok(Some(index))
  }

  /** What a chunk yields: it is skipped exactly when it is blank; a
      stripped chunk that is not all digits is an invalid value; a digit
      string outside `[1, maxValue]` is out of range; and an index it names
      is its decimal value, in range. */
  lemma ParseChunkMeaning(chunk: string, maxValue: int)
    ensures ParseChunk(chunk, maxValue) == Ok(None) <==> AllSpace(chunk)
    ensures !AllSpace(chunk) && !AllDigits(Strip(chunk)) ==>
      ParseChunk(chunk, maxValue) == Err(InvalidIndexValue(Strip(chunk)))
    ensures !AllSpace(chunk) && AllDigits(Strip(chunk)) && !(1 <= DecimalValue(Strip(chunk)) <= maxValue) ==>
      ParseChunk(chunk, maxValue) == Err(IndexOutOfRange(DecimalValue(Strip(chunk))))
    ensures ParseChunk(chunk, maxValue).Ok? && ParseChunk(chunk, maxValue).value.Some? ==>
      AllDigits(Strip(chunk)) && ParseChunk(chunk, maxValue).value.value == DecimalValue(Strip(chunk)) &&
      1 <= ParseChunk(chunk, maxValue).value.value <= maxValue
  {
  }

  /** The decimal string of an index in range parses as that index. */
  lemma ParseChunkDecimal(n: nat, maxValue: int)
    requires 1 <= n <= maxValue
    ensures ParseChunk(NatToString(n), maxValue) == Ok(Some(n))
  {
    DigitsEnds(NatToString(n));
    StripFixed(NatToString(n));
  }

  /** The chunk parser for a given bound. */
  function ChunkParser(maxValue: int): string -> Result<Option<int>, IndexError> {
    c => ParseChunk(c, maxValue)
  }

  /** The chunk loop: the indices of the chunks in order, or the error of the
      first chunk that raises one. */
  function ParseChunks(chunks: seq<string>, parse: string -> Result<Option<int>, IndexError>): Result<seq<int>, IndexError>
    decreases |chunks|
  {
    if chunks == [] then Ok([])
    else
      match parse(chunks[0])
      case Err(e) => Err(e)
      case Ok(o) =>
        match ParseChunks(chunks[1..], parse)
        case Err(e) => Err(e)
        case Ok(rest) => Ok(if o.Some? then [o.value] + rest else rest)
  }

  /** The chunk loop succeeds exactly when every chunk parses, and then
      yields exactly the indices the chunks name. */
  lemma {:induction false} ParseChunksOk(chunks: seq<string>, parse: string -> Result<Option<int>, IndexError>)
    ensures ParseChunks(chunks, parse).Ok? <==> forall k :: 0 <= k < |chunks| ==> parse(chunks[k]).Ok?
    ensures ParseChunks(chunks, parse).Ok? ==> forall x :: x in ParseChunks(chunks, parse).value <==>
      exists k :: 0 <= k < |chunks| && parse(chunks[k]) == Ok(Some(x))
    decreases |chunks|
  {
    if chunks != [] {
      ParseChunksOk(chunks[1..], parse);
      assert forall k :: 0 < k < |chunks| ==> chunks[k] == chunks[1..][k - 1];
    }
  }

  /** On failure, the error is that of the first chunk that does not parse. */
  lemma {:induction false} ParseChunksFirstError(chunks: seq<string>, parse: string -> Result<Option<int>, IndexError>)
    requires ParseChunks(chunks, parse).Err?
    ensures exists k :: 0 <= k < |chunks| && parse(chunks[k]) == Err(ParseChunks(chunks, parse).error) &&
                        forall j :: 0 <= j < k ==> parse(chunks[j]).Ok?
    decreases |chunks|
  {
    if parse(chunks[0]).Ok? {
      ParseChunksFirstError(chunks[1..], parse);
      var k :| 0 <= k < |chunks[1..]| && parse(chunks[1..][k]) == Err(ParseChunks(chunks[1..], parse).error) &&
               forall j :: 0 <= j < k ==> parse(chunks[1..][j]).Ok?;
      assert chunks[1..][k] == chunks[k + 1];
      forall j | 0 <= j < k + 1 ensures parse(chunks[j]).Ok? {
        if j > 0 {
          assert chunks[j] == chunks[1..][j - 1];
        }
      }
    }
  }

  /** Chunks that all name an index yield those indices in order. */
  lemma {:induction false} ParseChunksAll(chunks: seq<string>, parse: string -> Result<Option<int>, IndexError>, values: seq<int>)
    requires |values| == |chunks|
    requires forall k :: 0 <= k < |chunks| ==> parse(chunks[k]) == Ok(Some(values[k]))
    ensures ParseChunks(chunks, parse) == Ok(values)
    decreases |chunks|
  {
    if chunks != [] {
      assert forall k :: 0 <= k < |chunks[1..]| ==> chunks[1..][k] == chunks[k + 1] && values[1..][k] == values[k + 1];
      ParseChunksAll(chunks[1..], parse, values[1..]);
      assert values == [values[0]] + values[1..];
    }
  }

  /** Every index the chunk loop yields is in range. */
  lemma ParseChunksInRange(chunks: seq<string>, maxValue: int)
    requires ParseChunks(chunks, ChunkParser(maxValue)).Ok?
    ensures forall x :: x in ParseChunks(chunks, ChunkParser(maxValue)).value ==> 1 <= x <= maxValue
  {
    var parse := ChunkParser(maxValue);
    ParseChunksOk(chunks, parse);
    forall x | x in ParseChunks(chunks, parse).value ensures 1 <= x <= maxValue {
      var k :| 0 <= k < |chunks| && parse(chunks[k]) == Ok(Some(x));
      ParseChunkMeaning(chunks[k], maxValue);
    }
  }

  /** The chunks of a stripped input. */
  function Chunks(raw: string): seq<string> {
    Split(Strip(raw), ',')
  }

  /** `_parse_selected_indices(raw, max_value)`: a blank input selects
      nothing; otherwise every comma-separated chunk is stripped, blank
      chunks are skipped, and the result is the sorted set of the indices,
      each of which lies in `[1, max_value]`. */
  function ParseSelectedIndices(raw: string, maxValue: int): (r: Result<seq<int>, IndexError>)
    ensures AllSpace(raw) ==> r == Ok([])
    ensures r.Ok? ==> IntsSorted(r.value) && forall k :: 0 <= k < |r.value| ==> 1 <= r.value[k] <= maxValue
  {
    if Strip(raw) == [] then Ok([])
    else
      match ParseChunks(Chunks(raw), ChunkParser(maxValue))
      case Err(e) => Err(e)
      case Ok(indices) =>
        ParseChunksInRange(Chunks(raw), maxValue);
        SortedInRange(indices, maxValue);
        Ok(SortInts(indices))
  }

  /** Sorting keeps every value in range. */
  lemma SortedInRange(indices: seq<int>, maxValue: int)
    requires forall x :: x in indices ==> 1 <= x <= maxValue
    ensures forall k :: 0 <= k < |SortInts(indices)| ==> 1 <= SortInts(indices)[k] <= maxValue
  {
    var sorted := SortInts(indices);
    assert forall k :: 0 <= k < |sorted| ==> sorted[k] in Elems(indices);
  }

  /** A non-blank input is accepted exactly when every chunk parses; the
      selection is then the set of indices the chunks name. */
  lemma ParseSelectedIndicesOk(raw: string, maxValue: int)
    requires !AllSpace(raw)
    ensures var chunks := Chunks(raw);
            ParseSelectedIndices(raw, maxValue).Ok? <==> forall k :: 0 <= k < |chunks| ==> ParseChunk(chunks[k], maxValue).Ok?
    ensures var chunks := Chunks(raw);
            ParseSelectedIndices(raw, maxValue).Ok? ==> forall x :: x in ParseSelectedIndices(raw, maxValue).value <==>
              exists k :: 0 <= k < |chunks| && ParseChunk(chunks[k], maxValue) == Ok(Some(x))
  {
    var chunks := Chunks(raw);
    var parse := ChunkParser(maxValue);
    var p := ParseChunks(chunks, parse);
    ParseSelectedIndicesChunks(raw, maxValue);
    assert p.Ok? <==> forall k :: 0 <= k < |chunks| ==> ParseChunk(chunks[k], maxValue).Ok? by {
      ParseChunksOk(chunks, parse);
      ChunkParserIs(chunks, maxValue);
    }
    if p.Ok? {
      var v := p.value;
      assert forall x :: x in v <==> exists k :: 0 <= k < |chunks| && ParseChunk(chunks[k], maxValue) == Ok(Some(x)) by {
        ParseChunksOk(chunks, parse);
        ChunkParserIs(chunks, maxValue);
      }
      assert forall x :: x in SortInts(v) <==> x in v by {
        assert forall x :: x in SortInts(v) <==> x in Elems(SortInts(v));
        assert forall x :: x in v <==> x in Elems(v);
      }
    }
  }

  /** A non-blank input is the sorted set of what the chunk loop yields, or
      its error. */
  lemma ParseSelectedIndicesChunks(raw: string, maxValue: int)
    requires !AllSpace(raw)
    ensures var p := ParseChunks(Chunks(raw), ChunkParser(maxValue));
            ParseSelectedIndices(raw, maxValue) == if p.Ok? then Ok(SortInts(p.value)) else Err(p.error)
  {
  }

  /** The chunk parser applies `ParseChunk` to every chunk. */
  lemma ChunkParserIs(chunks: seq<string>, maxValue: int)
    ensures forall k :: 0 <= k < |chunks| ==> ChunkParser(maxValue)(chunks[k]) == ParseChunk(chunks[k], maxValue)
  {
  }

  /** A rejected input reports the error of its first bad chunk, every chunk
      before it having parsed. */
  lemma ParseSelectedIndicesError(raw: string, maxValue: int)
    requires ParseSelectedIndices(raw, maxValue).Err?
    ensures var chunks := Chunks(raw);
            exists k :: 0 <= k < |chunks| && ParseChunk(chunks[k], maxValue) == Err(ParseSelectedIndices(raw, maxValue).error) &&
                        forall j :: 0 <= j < k ==> ParseChunk(chunks[j], maxValue).Ok?
  {
    var chunks := Chunks(raw);
    var parse := ChunkParser(maxValue);
    ParseChunksFirstError(chunks, parse);
    ChunkParserIs(chunks, maxValue);
  }

  /** The decimal strings of a list of numbers. */
  function Decimals(indices: seq<nat>): (r: seq<string>)
    ensures |r| == |indices|
    ensures forall k :: 0 <= k < |r| ==> r[k] == NatToString(indices[k])
  {
    seq(|indices|, k requires 0 <= k < |indices| => NatToString(indices[k]))
  }

  /** Writing a selection as its comma-separated decimal indices and parsing
      it back gives the selection. */
  lemma ParseSelectedIndicesRoundTrip(indices: seq<nat>, maxValue: int)
    requires indices != []
    requires IntsSorted(indices)
    requires forall k :: 0 <= k < |indices| ==> 1 <= indices[k] <= maxValue
    ensures ParseSelectedIndices(Join(Decimals(indices), ","), maxValue) == Ok(indices)
  {
    var parts := Decimals(indices);
    var raw := Join(parts, ",");
    forall k | 0 <= k < |parts| ensures ',' !in parts[k] && parts[k] != [] && AllDigits(parts[k]) {
      DigitsEnds(parts[k]);
    }
    JoinDigitEnds(parts);
    DigitsEnds(raw[..1]);
    StripFixed(raw);
    SplitJoin(parts, ',');
    assert Chunks(raw) == parts;
    var parse := ChunkParser(maxValue);
    forall k | 0 <= k < |parts| ensures parse(parts[k]) == Ok(Some(indices[k] as int)) {
      ParseChunkDecimal(indices[k], maxValue);
    }
    ParseChunksAll(parts, parse, indices);
    SortIntsSorted(indices);
  }

  /** A digit string holds no comma and neither begins nor ends with
      whitespace. */
  lemma DigitsEnds(s: string)
    requires AllDigits(s)
    ensures ',' !in s
    ensures s == [] || (!IsSpace(s[0]) && !IsSpace(s[|s| - 1]))
  {
  }

  /** Joining non-empty digit strings with commas gives a string that begins
      and ends with a digit. */
  lemma {:induction false} JoinDigitEnds(parts: seq<string>)
    requires parts != []
    requires forall k :: 0 <= k < |parts| ==> parts[k] != [] && AllDigits(parts[k])
    ensures var s := Join(parts, ",");
            s != [] && IsDigit(s[0]) && IsDigit(s[|s| - 1])
    decreases |parts|
  {
    if |parts| > 1 {
      JoinDigitEnds(parts[1..]);
      var tail := Join(parts[1..], ",");
      assert Join(parts, ",") == parts[0] + "," + tail;
    }
  }

  /** `_format_word_preview(words, limit)`: "(none)" for no word; otherwise
      the first `limit` words (Python's `words[:limit]`) joined with ", ",
      followed by a count of the words left out when there are any. */
  function FormatWordPreview(words: seq<string>, limit: int): string {
    if words == [] then "(none)"
    else
      var shown := PyPrefix(words, limit);
      var remainder := |words| - |shown|;
      var text := Join(shown, ", ");
      if remainder > 0 then text + ", (+" + NatToString(remainder) + " more)" else text
  }

  /** The preview shows every word when they fit, and otherwise a leading
      part of the list and the number of words it leaves out, the two
      adding up to the whole list. */
  lemma FormatWordPreviewCases(words: seq<string>, limit: int)
    ensures words == [] ==> FormatWordPreview(words, limit) == "(none)"
    ensures words != [] && |words| <= limit ==> FormatWordPreview(words, limit) == Join(words, ", ")
    ensures words != [] && limit >= 0 && |words| > limit ==>
      FormatWordPreview(words, limit) == Join(words[..limit], ", ") + ", (+" + NatToString(|words| - limit) + " more)"
    ensures words != [] && limit < 0 ==>
      var n := |words| - (if -limit < |words| then -limit else |words|);
      0 <= n < |words| &&
      FormatWordPreview(words, limit) == Join(words[..n], ", ") + ", (+" + NatToString(|words| - n) + " more)"
  {
    if words == [] {
    } else if |words| <= limit {
      assert PyPrefix(words, limit) == words;
    } else if limit >= 0 {
      PreviewOverflow(words, limit, limit);
    } else {
      var n := |words| - (if -limit < |words| then -limit else |words|);
      PreviewOverflow(words, limit, n);
    }
  }

  /** When only the first `n` words are shown, the rest are counted. */
  lemma PreviewOverflow(words: seq<string>, limit: int, n: nat)
    requires n < |words| && PyPrefix(words, limit) == words[..n]
    ensures FormatWordPreview(words, limit) == Join(words[..n], ", ") + ", (+" + NatToString(|words| - n) + " more)"
  {
  }
}

=== FILE: dedup.dfy ===
/** dedup.py: drop words already seen in earlier runs of the same source,
    and repeats within this run. */
module Dedup {
  import opened Seqs

  /** `exclude_seen(candidates, seen)`, as the source's loop with a local
      seen-set. The result is the first-seen deduplication of `candidates`
      against `seen`: no word of `seen` and no repeat (`KeptFacts` gives the
      rest). */
  method ExcludeSeen(candidates: seq<string>, seen: set<string>) returns (kept: seq<string>)
    ensures kept == DedupFrom(candidates, seen)
    ensures forall x :: x in kept ==> x !in seen
    ensures NoDups(kept)
  {
    kept := [];
    var localSeen: set<string> := {};
    assert candidates[0..] == candidates && seen + localSeen == seen;
    for i := 0 to |candidates|
      invariant kept + DedupFrom(candidates[i..], seen + localSeen) == DedupFrom(candidates, seen)
    {
      var token := candidates[i];
      KeptStep(kept, candidates, i, seen, localSeen);
      if token !in seen && token !in localSeen {
        localSeen := localSeen + {token};
        kept := kept + [token];
      }
    }
    assert DedupFrom(candidates[|candidates|..], seen + localSeen) == [];
  }

  /** One iteration of the loop keeps what is kept plus what remains to be
      kept unchanged. */
  lemma KeptStep(kept: seq<string>, candidates: seq<string>, i: nat, seen: set<string>, localSeen: set<string>)
    requires i < |candidates|
    ensures var token := candidates[i];
            kept + DedupFrom(candidates[i..], seen + localSeen)
            == if token in seen || token in localSeen then kept + DedupFrom(candidates[i + 1..], seen + localSeen)
               else (kept + [token]) + DedupFrom(candidates[i + 1..], seen + (localSeen + {token}))
  {
    var token := candidates[i];
    var rest := candidates[i + 1..];
    var s := seen + localSeen;
    assert candidates[i..] == [token] + rest;
    DedupFromCons(token, rest, s);
    if token !in s {
      assert s + {token} == seen + (localSeen + {token});
      assert kept + ([token] + DedupFrom(rest, s + {token})) == (kept + [token]) + DedupFrom(rest, s + {token});
    }
  }

  /** What the first-seen deduplication promises besides its definition:
      order of first occurrence, and every unseen word exactly once. */
  lemma KeptFacts(candidates: seq<string>, seen: set<string>)
    ensures var kept := DedupFrom(candidates, seen);
            && (forall x :: x in candidates && x !in seen ==> multiset(kept)[x] == 1)
            && IsSubseq(kept, candidates) && FirstSeenOrder(kept, candidates)
  {
    var kept := DedupFrom(candidates, seen);
    DedupFromSubseq(candidates, seen);
    DedupFromOrder(candidates, seen);
    forall x | x in candidates && x !in seen ensures multiset(kept)[x] == 1 {
      NoDupsOnce(kept, x);
    }
  }

  /** tests/test_dedup.py: a seen word and its repeat are both dropped. */
  method ExcludeSeenExample() returns (kept: seq<string>)
    ensures kept == ["勇者"]
  {
    kept := ExcludeSeen(["冒険", "勇者", "冒険"], {"冒険"});
    assert ["冒険", "勇者", "冒険"][1..] == ["勇者", "冒険"];
    assert ["勇者", "冒険"][1..] == ["冒険"];
  }
}

=== FILE: dict_install.dfy ===
/** The reduction in dict_install.py from parsed JMdict entries to the offline
    dictionary: English glosses, the headword forms, and one record per form
    with the first entry winning. */
module DictInstall {
  import opened Wrappers
  import opened Seqs
  import opened Text

  /** A `<gloss>` element: its `xml:lang` attribute and its text, either of
      which may be missing. */
  datatype Gloss = Gloss(lang: Option<string>, text: Option<string>)

  /** An `<entry>` element: the texts of its `k_ele/keb` and `r_ele/reb`
      elements and all its `sense/gloss` elements, in document order. */
  datatype JmEntry = JmEntry(kebs: seq<Option<string>>, rebs: seq<Option<string>>, glosses: seq<Gloss>)

  /** The record stored for one form. */
  datatype OfflineRecord = OfflineRecord(reading: string, meanings: seq<string>)

  /** A gloss is English when it has no language, an empty one, or "eng". */
  predicate IsEnglish(lang: Option<string>) {
    lang.None? || lang.value == "" || lang.value == "eng"
  }

  /** The stripped text of a gloss (a missing text counts as ""). */
  function GlossText(g: Gloss): string {
    Strip(g.text.GetOr(""))
  }

  predicate IsEnglishGloss(g: Gloss) {
    IsEnglish(g.lang)
  }

  /** The stripped texts of the English glosses, in order. */
  function EnglishTexts(glosses: seq<Gloss>): seq<string> {
    MapKeep(glosses, IsEnglishGloss, GlossText)
  }

  /** The gloss loop of `_extract_english_glosses` over the stripped English
      texts, with `out` collected so far: a blank text or one already
      collected is skipped. */
  function CollectFrom(texts: seq<string>, out: seq<string>): seq<string>
    decreases |texts|
  {
    if texts == [] then out
    else if texts[0] == "" || texts[0] in out then CollectFrom(texts[1..], out)
    else CollectFrom(texts[1..], out + [texts[0]])
  }

  /** The loop appends to `out` the first-seen deduplication of the non-blank
      texts that are not already in `out`. */
  lemma {:induction false} CollectFromDedup(texts: seq<string>, out: seq<string>)
    ensures CollectFrom(texts, out) == out + DedupFrom(Without(texts, {""}), Elems(out))
    decreases |texts|
  {
    if texts != [] {
      var t := texts[0];
      WithoutCons(t, texts[1..], {""});
      if t == "" {
        CollectFromDedup(texts[1..], out);
      } else {
        DedupFromCons(t, Without(texts[1..], {""}), Elems(out));
        if t in out {
          CollectFromDedup(texts[1..], out);
        } else {
          CollectFromDedup(texts[1..], out + [t]);
          assert Elems(out + [t]) == Elems(out) + {t};
        }
      }
    }
  }

  /** `_extract_english_glosses(entry)`. */
  function ExtractEnglishGlosses(glosses: seq<Gloss>): seq<string> {
    CollectFrom(EnglishTexts(glosses), [])
  }

  /** The glosses are the first-seen deduplication of the non-blank stripped
      texts of the English glosses. */
  lemma ExtractEnglishGlossesDedup(glosses: seq<Gloss>)
    ensures ExtractEnglishGlosses(glosses) == Dedup(Without(EnglishTexts(glosses), {""}))
  {
    CollectFromDedup(EnglishTexts(glosses), []);
    assert Elems<string>([]) == {};
  }

  /** The glosses are distinct, non-empty, and exactly the stripped texts of
      the English glosses. */
  lemma ExtractEnglishGlossesMembers(glosses: seq<Gloss>)
    ensures NoDups(ExtractEnglishGlosses(glosses))
    ensures forall x :: x in ExtractEnglishGlosses(glosses) <==>
      x != "" && exists k :: 0 <= k < |glosses| && IsEnglish(glosses[k].lang) && x == GlossText(glosses[k])
  {
    ExtractEnglishGlossesDedup(glosses);
  }

  /** The stripped text of an element (a missing text counts as ""). */
  function StrippedText(t: Option<string>): string {
    if t.Some? then Strip(t.value) else ""
  }

  function StrippedTexts(texts: seq<Option<string>>): seq<string> {
    seq(|texts|, k requires 0 <= k < |texts| => StrippedText(texts[k]))
  }

  /** The stripped, non-blank texts of a list of `keb` or `reb` elements. */
  function FormTexts(texts: seq<Option<string>>): seq<string> {
    Without(StrippedTexts(texts), {""})
  }

  /** The form texts are exactly the non-blank stripped texts, each stripped. */
  lemma FormTextsMembers(texts: seq<Option<string>>)
    ensures forall x :: x in FormTexts(texts) <==>
      x != "" && exists k :: 0 <= k < |texts| && x == StrippedText(texts[k])
  {
    var st := StrippedTexts(texts);
    assert forall k :: 0 <= k < |texts| ==> st[k] == StrippedText(texts[k]);
  }

  /** The forms an entry is stored under: its kanji forms, or its reading
      forms when it has no kanji form. */
  function Forms(e: JmEntry): seq<string> {
    var keb := FormTexts(e.kebs);
    if keb != [] then keb else FormTexts(e.rebs)
  }

  /** The reading stored for a form: the form itself when it is a reading
      form, else the first reading form, else "". */
  function ReadingFor(form: string, reb: seq<string>): (r: string)
    ensures reb != [] ==> r in reb
    ensures reb != [] ==> (r == form <==> form in reb)
    ensures form !in reb && reb != [] ==> r == reb[0]
    ensures reb == [] ==> r == ""
  {
    if form in reb then form else if reb != [] then reb[0] else ""
  }

  /** An entry contributes form `f` when it has an English gloss and `f` is one
      of its forms. */
  predicate Defines(e: JmEntry, f: string) {
    ExtractEnglishGlosses(e.glosses) != [] && f in Forms(e)
  }

  /** The record an entry stores for form `f`: the reading rule, and the
      glosses cut to `max_meanings` (the cut happens after the check that
      there is a gloss, so a bound of 0 stores an empty list). */
  function RecordFor(e: JmEntry, f: string, maxMeanings: int): OfflineRecord {
    OfflineRecord(ReadingFor(f, FormTexts(e.rebs)), PyPrefix(ExtractEnglishGlosses(e.glosses), maxMeanings))
  }

  /** The stored record holds the form's reading and the first
      `max_meanings` English glosses, as Python's slice counts them. */
  lemma RecordForContents(e: JmEntry, f: string, maxMeanings: int)
    ensures var r := RecordFor(e, f, maxMeanings);
            var glosses := ExtractEnglishGlosses(e.glosses);
            var n := |glosses|;
            && r.reading == ReadingFor(f, FormTexts(e.rebs))
            && |r.meanings| <= n && r.meanings == glosses[..|r.meanings|]
            && |r.meanings| == if maxMeanings >= 0 then (if maxMeanings < n then maxMeanings else n)
                               else (if n + maxMeanings > 0 then n + maxMeanings else 0)
  {
  }

  /** The inner loop over the forms of one entry, which all share the
      entry's meanings: a form already stored is skipped. */
  function AddForms(data: map<string, OfflineRecord>, forms: seq<string>, reb: seq<string>, meanings: seq<string>)
    : (r: map<string, OfflineRecord>)
    ensures r.Keys == data.Keys + Elems(forms)
    ensures forall f :: f in data ==> r[f] == data[f]
    ensures forall f :: f in forms && f !in data ==> r[f] == OfflineRecord(ReadingFor(f, reb), meanings)
    decreases |forms|
  {
    if forms == [] then data
    else
      var f := forms[0];
      var next := if f in data then data else data[f := OfflineRecord(ReadingFor(f, reb), meanings)];
      assert forall k :: 0 < k < |forms| ==> forms[k] == forms[1..][k - 1];
      assert Elems(forms) == {f} + Elems(forms[1..]);
      AddForms(next, forms[1..], reb, meanings)
  }

  /** One iteration of the entry loop of `_build_offline_payload_from_jmdict_xml_bytes`:
      an entry without English gloss or without form adds nothing; otherwise
      each of its forms not yet stored gets this entry's record. */
  function AddEntry(data: map<string, OfflineRecord>, e: JmEntry, maxMeanings: int): (r: map<string, OfflineRecord>)
    ensures forall f :: f in r <==> f in data || Defines(e, f)
    ensures forall f :: f in data ==> r[f] == data[f]
    ensures forall f :: f !in data && Defines(e, f) ==> r[f] == RecordFor(e, f, maxMeanings)
  {
    var meanings := ExtractEnglishGlosses(e.glosses);
    if meanings == [] then data
    else
      var forms := Forms(e);
      if forms == [] then data
      else AddForms(data, forms, FormTexts(e.rebs), PyPrefix(meanings, maxMeanings))
  }

  /** The entry loop over the entries from the first on, starting from `data`. */
  function BuildFrom(entries: seq<JmEntry>, data: map<string, OfflineRecord>, maxMeanings: int)
    : (r: map<string, OfflineRecord>)
    decreases |entries|
  {
    if entries == [] then data else BuildFrom(entries[1..], AddEntry(data, entries[0], maxMeanings), maxMeanings)
  }

  /** `_build_offline_payload_from_jmdict_xml_bytes` over parsed entries. */
  function BuildOfflinePayload(entries: seq<JmEntry>, maxMeanings: int): map<string, OfflineRecord> {
    BuildFrom(entries, map[], maxMeanings)
  }

  /** Stored forms are never overwritten, and a form is stored exactly when
      it was stored before or some entry defines it. */
  lemma {:induction false} BuildFromKeys(entries: seq<JmEntry>, data: map<string, OfflineRecord>, maxMeanings: int, f: string)
    ensures var r := BuildFrom(entries, data, maxMeanings);
            (f in r <==> f in data || exists i :: 0 <= i < |entries| && Defines(entries[i], f)) &&
            (f in data ==> r[f] == data[f])
    decreases |entries|
  {
    if entries != [] {
      BuildFromKeys(entries[1..], AddEntry(data, entries[0], maxMeanings), maxMeanings, f);
      if exists i :: 0 <= i < |entries| && Defines(entries[i], f) {
        var i :| 0 <= i < |entries| && Defines(entries[i], f);
        if i > 0 {
          assert Defines(entries[1..][i - 1], f);
        }
      }
      if exists i :: 0 <= i < |entries[1..]| && Defines(entries[1..][i], f) {
        var i :| 0 <= i < |entries[1..]| && Defines(entries[1..][i], f);
        assert Defines(entries[i + 1], f);
      }
    }
  }

  /** The first entry to define a form decides its record: when entry `i`
      defines `f` and no earlier entry does, the payload stores entry `i`'s
      record for `f`. */
  lemma {:induction false} BuildFromFirstWins(entries: seq<JmEntry>, data: map<string, OfflineRecord>,
                                             maxMeanings: int, f: string, i: nat)
    requires f !in data
    requires i < |entries| && Defines(entries[i], f)
    requires forall j :: 0 <= j < i ==> !Defines(entries[j], f)
    ensures f in BuildFrom(entries, data, maxMeanings)
    ensures BuildFrom(entries, data, maxMeanings)[f] == RecordFor(entries[i], f, maxMeanings)
    decreases |entries|
  {
    var next := AddEntry(data, entries[0], maxMeanings);
    assert BuildFrom(entries, data, maxMeanings) == BuildFrom(entries[1..], next, maxMeanings);
    if i == 0 {
      assert f in next && next[f] == RecordFor(entries[0], f, maxMeanings);
      BuildFromKeys(entries[1..], next, maxMeanings, f);
    } else {
      assert !Defines(entries[0], f);
      assert f !in next;
      forall j | 0 <= j < i - 1 ensures !Defines(entries[1..][j], f) {
        assert entries[1..][j] == entries[j + 1];
      }
      BuildFromFirstWins(entries[1..], next, maxMeanings, f, i - 1);
    }
  }

  /** tests/test_dict_install.py:5-27, reduced to the reading rule: a kanji
      form takes the first reading, and a kana-only entry is stored under its
      reading with itself as the reading. */
  lemma ReadingExample()
    ensures ReadingFor("無駄飯食い", ["むだめしくい"]) == "むだめしくい"
    ensures ReadingFor("すごい", ["すごい"]) == "すごい"
  {
    assert "無駄飯食い" != "むだめしくい";
  }
}

=== FILE: enrich.dfy ===
/** enrich.py: look a word up offline, then online, and keep its reading and
    at most `max_meanings` meanings. */
module Enrich {
  import opened Wrappers
  import opened Text

  /** A dictionary record as the lookups return it: the "reading" and
      "meanings" keys when present, and how many other keys it has. */
  datatype Entry = Entry(reading: Option<string>, meanings: Option<seq<string>>, otherKeys: nat)

  /** Python truthiness of a lookup result: a record with at least one key. */
  predicate Found(e: Option<Entry>) {
    e.Some? && (e.value.reading.Some? || e.value.meanings.Some? || e.value.otherKeys > 0)
  }

  /** The dict `enrich_word` returns. */
  datatype Enriched = Enriched(word: string, reading: string, meanings: seq<string>)

  /** `enrich_word(word, offline, online, max_meanings)`: the offline record
      when it is found, else the online one; without a record the reading is
      "" and there is no meaning; with one, a missing reading is "" and the
      meanings are the record's first `max_meanings` (Python's slice, so a
      negative bound drops that many from the end). */
  function EnrichWord(word: string, offline: string -> Option<Entry>, online: string -> Option<Entry>,
                      maxMeanings: int): (r: Enriched)
    ensures r.word == word
    ensures !Found(offline(word)) && !Found(online(word)) ==> r.reading == "" && r.meanings == []
    ensures var e := if Found(offline(word)) then offline(word) else online(word);
            Found(e) ==>
              r.reading == e.value.reading.GetOr("") &&
              |r.meanings| <= |e.value.meanings.GetOr([])| &&
              r.meanings == e.value.meanings.GetOr([])[..|r.meanings|]
    ensures var e := if Found(offline(word)) then offline(word) else online(word);
            Found(e) ==>
              var n := |e.value.meanings.GetOr([])|;
              |r.meanings| == if maxMeanings >= 0 then (if maxMeanings < n then maxMeanings else n)
                              else (if n + maxMeanings > 0 then n + maxMeanings else 0)
  {
    var entry := if Found(offline(word)) then offline(word) else online(word);
    if !Found(entry) then Enriched(word, "", [])
    else Enriched(word, entry.value.reading.GetOr(""), PyPrefix(entry.value.meanings.GetOr([]), maxMeanings))
  }

  /** The online dictionary is not consulted when the offline one has the
      word: any two online dictionaries give the same result. */
  lemma OfflineFirst(word: string, offline: string -> Option<Entry>, online: string -> Option<Entry>,
                     online': string -> Option<Entry>, maxMeanings: int)
    requires Found(offline(word))
    ensures EnrichWord(word, offline, online, maxMeanings) == EnrichWord(word, offline, online', maxMeanings)
  {
  }

  /** Meanings are kept in full when there are no more than `max_meanings`. */
  lemma EnrichKeepsShortMeanings(word: string, offline: string -> Option<Entry>, online: string -> Option<Entry>,
                                 maxMeanings: int)
    requires var e := if Found(offline(word)) then offline(word) else online(word);
             Found(e) && |e.value.meanings.GetOr([])| <= maxMeanings
    ensures var e := if Found(offline(word)) then offline(word) else online(word);
            EnrichWord(word, offline, online, maxMeanings).meanings == e.value.meanings.GetOr([])
  {
  }

  /** tests/test_enrich.py:4-17: offline knows nothing, online has four
      meanings, three are kept. */
  lemma EnrichExample()
    ensures var r := EnrichWord("冒険", (w: string) => None,
                                (w: string) => Some(Entry(Some("ぼうけん"), Some(["adventure", "quest", "journey", "venture"]), 0)), 3);
            r.reading == "ぼうけん" && r.meanings == ["adventure", "quest", "journey"]
  {
  }
}

=== FILE: filtering.dfy ===
/** filtering.py: drop grammatical particles, single-kanji numerals and the
    learner's known words from a token list. */
module Filtering {
  import opened Seqs

  /** `DEFAULT_PARTICLES` (filtering.py:1-24). */
  const DefaultParticles: set<string> := {
    "は", "が", "を", "に", "で", "と", "も", "の", "へ", "か", "なぁ",
    "一", "二", "三", "四", "五", "六", "七", "八", "九", "十", "人"
  }

  /** `filter_tokens(tokens, known_words)`: an order-preserving subsequence of
      `tokens` that drops every particle and known word and keeps every other
      token. */
  function FilterTokens(tokens: seq<string>, known: set<string>): (r: seq<string>)
    ensures IsSubseq(r, tokens)
    ensures forall x :: x in r <==> x in tokens && x !in DefaultParticles && x !in known
  {
    WithoutSubseq(tokens, DefaultParticles + known);
    Without(tokens, DefaultParticles + known)
  }

  /** Every token that is neither a particle nor known is kept as often as it
      occurs. */
  lemma FilterTokensKeepsOthers(tokens: seq<string>, known: set<string>, x: string)
    requires x !in DefaultParticles && x !in known
    ensures multiset(FilterTokens(tokens, known))[x] == multiset(tokens)[x]
  {
    WithoutCount(tokens, DefaultParticles + known, x);
  }

  /** Filtering twice equals filtering once. */
  lemma FilterTokensIdempotent(tokens: seq<string>, known: set<string>)
    ensures FilterTokens(FilterTokens(tokens, known), known) == FilterTokens(tokens, known)
  {
    WithoutIdempotent(tokens, DefaultParticles + known);
  }

  /** tests/test_filtering.py: a particle and a known word are removed. */
  lemma FilterTokensExample()
    ensures FilterTokens(["私", "は", "学生", "です"], {"学生"}) == ["私", "です"]
  {
    var drop := DefaultParticles + {"学生"};
    assert "私" !in drop && "です" !in drop && "は" in drop && "学生" in drop;
    ExampleSteps("私", "は", "学生", "です", drop);
  }

  lemma ExampleSteps(a: string, b: string, c: string, d: string, drop: set<string>)
    requires a !in drop && b in drop && c in drop && d !in drop
    ensures Without([a, b, c, d], drop) == [a, d]
  {
    assert [a, b, c, d][1..] == [b, c, d] && [b, c, d][1..] == [c, d] && [c, d][1..] == [d] && [d][1..] == [];
    assert Without([d], drop) == [d];
    assert Without([c, d], drop) == [d];
    assert Without([b, c, d], drop) == [d];
  }
}

=== FILE: normalization.dfy ===
/** normalization.py: pair each lemma token of a text with the surface token
    at the same position, choose which form to keep (optionally asking a
    "word exists" oracle), tag the choice with a confidence and a reason,
    and keep one entry per chosen word. */
module Normalization {
  import opened Wrappers
  import opened Seqs

  /** The three reason codes; each carries a fixed confidence, and the
      confidences strictly order the reasons. */
  datatype Reason = DictionaryValidated | LemmaNormalized | SurfaceFallback {
    function Name(): string {
      match this
      case DictionaryValidated => "dictionary_validated"
      case LemmaNormalized => "lemma_normalized"
      case SurfaceFallback => "surface_fallback"
    }

    function Confidence(): real {
      match this
      case DictionaryValidated => 0.99
      case LemmaNormalized => 0.95
      case SurfaceFallback => 0.65
    }
  }

  /** The `(word, confidence, reason)` triple `_choose_best_candidate` returns. */
  datatype Choice = Choice(word: string, confidence: real, reason: Reason)

  /** `NormalizedCandidate` (normalization.py:14-20); the fields `lemma` and
      `method` are called `base` and `methodName`, both words being reserved. */
  datatype NormalizedCandidate = NormalizedCandidate(
    surface: string, base: string, methodName: string, confidence: real, reason: Reason)

  /** `RuleBasedNormalizer.method_name`. */
  const MethodName: string := "rule_based"

  /** The tokenize.py helpers that the normalizer and the scan stage import:
      the surface-token sequence of a text, its dictionary-form token
      sequence, and the candidate-token test. Their definitions are not part
      of this model, so they are parameters. */
  datatype Segmenter = Segmenter(
    tokens: string -> seq<string>,
    lemmaTokens: string -> seq<string>,
    isCandidate: string -> bool)

  /** What the oracle confirms: a non-empty word it reports as existing. */
  predicate Confirmed(oracle: string -> bool, w: string) {
    w != "" && oracle(w)
  }

  /** The answer without an oracle, also the answer when the oracle confirms
      nothing (normalization.py:69-71 and 80-82). */
  function Fallback(surface: string, base: string): Choice {
    if surface != base then Choice(base, 0.95, LemmaNormalized)
    else Choice(base, 0.65, SurfaceFallback)
  }

  /** The preference list `[lemma, surface]`, without empty strings and
      without a repeat (normalization.py:73-76). */
  function Options(base: string, surface: string): seq<string> {
    var first := if base != "" then [base] else [];
    if surface != "" && surface !in first then first + [surface] else first
  }

  /** The first option the oracle confirms. */
  function FirstExisting(options: seq<string>, oracle: string -> bool): Option<string>
    decreases |options|
  {
    if options == [] then None
    else if oracle(options[0]) then Some(options[0])
    else FirstExisting(options[1..], oracle)
  }

  /** `_choose_best_candidate(surface, lemma, word_exists)`: a lemma the oracle
      confirms wins, then a surface it confirms, both as dictionary_validated;
      otherwise (and always without an oracle) the lemma is returned, as
      lemma_normalized when it differs from the surface and as
      surface_fallback when it does not. */
  function ChooseBestCandidate(surface: string, base: string, wordExists: Option<string -> bool>): (c: Choice)
    ensures c.confidence == c.reason.Confidence()
    ensures c.word == base || c.word == surface
    ensures wordExists.None? ==>
      c.word == base && c.reason != DictionaryValidated && (c.reason == LemmaNormalized <==> surface != base)
    ensures wordExists.Some? && Confirmed(wordExists.value, base) ==>
      c.word == base && c.reason == DictionaryValidated
    ensures wordExists.Some? && !Confirmed(wordExists.value, base) && Confirmed(wordExists.value, surface) ==>
      c.word == surface && c.reason == DictionaryValidated
    ensures wordExists.Some? && !Confirmed(wordExists.value, base) && !Confirmed(wordExists.value, surface) ==>
      c.word == base && c.reason != DictionaryValidated && (c.reason == LemmaNormalized <==> surface != base)
  {
    match wordExists
    case None => Fallback(surface, base)
    case Some(oracle) =>
      FirstExistingOptions(base, surface, oracle);
      match FirstExisting(Options(base, surface), oracle)
      case Some(w) => Choice(w, 0.99, DictionaryValidated)
      case None => Fallback(surface, base)
  }

  /** Scanning the preference list finds the lemma if the oracle confirms it,
      else the surface if the oracle confirms that, else nothing. */
  lemma FirstExistingOptions(base: string, surface: string, oracle: string -> bool)
    ensures FirstExisting(Options(base, surface), oracle) ==
      if Confirmed(oracle, base) then Some(base)
      else if Confirmed(oracle, surface) then Some(surface)
      else None
  {
    var options := Options(base, surface);
    if base != "" {
      assert options[0] == base;
      if surface != "" && surface != base {
        assert options[1..] == [surface];
        assert options[1..][1..] == [];
        assert FirstExisting(options[1..], oracle) == if oracle(surface) then Some(surface) else None;
      } else {
        assert options[1..] == [];
      }
    } else if surface != "" {
      assert options == [surface] && options[1..] == [];
    }
  }

  /** An oracle that confirms nothing changes nothing. */
  lemma ChooseWithoutHits(surface: string, base: string, oracle: string -> bool)
    requires forall w :: !oracle(w)
    ensures ChooseBestCandidate(surface, base, Some(oracle)) == ChooseBestCandidate(surface, base, None)
  {
  }

  /** The entry the normalizer builds for position `i` of the lemma sequence:
      the surface at the same position, or the lemma itself when the surface
      sequence is shorter (normalization.py:46-59). */
  function CandidateAt(surfaces: seq<string>, lemmas: seq<string>, wordExists: Option<string -> bool>, i: nat)
    : (e: NormalizedCandidate)
    requires i < |lemmas|
    ensures e.surface == if i < |surfaces| then surfaces[i] else lemmas[i]
    ensures e.methodName == MethodName
    ensures var c := ChooseBestCandidate(e.surface, lemmas[i], wordExists);
            e.base == c.word && e.confidence == c.confidence && e.reason == c.reason
  {
    var surface := if i < |surfaces| then surfaces[i] else lemmas[i];
    var c := ChooseBestCandidate(surface, lemmas[i], wordExists);
    NormalizedCandidate(surface, c.word, MethodName, c.confidence, c.reason)
  }

  /** The entry built at every position, before deduplication. */
  function Entries(surfaces: seq<string>, lemmas: seq<string>, wordExists: Option<string -> bool>)
    : (r: seq<NormalizedCandidate>)
    ensures |r| == |lemmas|
  {
    seq(|lemmas|, i requires 0 <= i < |lemmas| => CandidateAt(surfaces, lemmas, wordExists, i))
  }

  function LemmasOf(entries: seq<NormalizedCandidate>): (r: seq<string>)
    ensures |r| == |entries|
    ensures forall k :: 0 <= k < |r| ==> r[k] == entries[k].base
  {
    seq(|entries|, k requires 0 <= k < |entries| => entries[k].base)
  }

  lemma LemmasOfCons(e: NormalizedCandidate, rest: seq<NormalizedCandidate>)
    ensures LemmasOf([e] + rest) == [e.base] + LemmasOf(rest)
  {
    var l := LemmasOf([e] + rest);
    assert forall k :: 0 < k < |l| ==> l[k] == rest[k - 1].base;
  }

  /** The skip-if-seen loop of `normalize_text`, with `seen` holding the
      words already emitted: the entries whose chosen word is new, in order. */
  function FirstPerWord(entries: seq<NormalizedCandidate>, seen: set<string>): (r: seq<NormalizedCandidate>)
    ensures |r| <= |entries| && IsSubseq(r, entries)
    ensures forall k :: 0 <= k < |r| ==> r[k].base !in seen
    decreases |entries|
  {
    if entries == [] then []
    else if entries[0].base in seen then FirstPerWord(entries[1..], seen)
    else [entries[0]] + FirstPerWord(entries[1..], seen + {entries[0].base})
  }

  /** The emitted words are the first-seen deduplication of the chosen words,
      less those already seen. */
  lemma {:induction false} FirstPerWordDedup(entries: seq<NormalizedCandidate>, seen: set<string>)
    ensures LemmasOf(FirstPerWord(entries, seen)) == DedupFrom(LemmasOf(entries), seen)
    decreases |entries|
  {
    if entries != [] {
      var e := entries[0];
      LemmasOfCons(e, entries[1..]);
      assert entries == [e] + entries[1..];
      DedupFromCons(e.base, LemmasOf(entries[1..]), seen);
      if e.base in seen {
        FirstPerWordDedup(entries[1..], seen);
      } else {
        var rest := FirstPerWord(entries[1..], seen + {e.base});
        FirstPerWordDedup(entries[1..], seen + {e.base});
        LemmasOfCons(e, rest);
      }
    }
  }

  /** The first entry with a given chosen word wins: every emitted entry is
      the entry at the first position carrying its word. */
  lemma {:induction false} FirstPerWordFirstWins(entries: seq<NormalizedCandidate>, seen: set<string>, k: nat)
    requires k < |FirstPerWord(entries, seen)|
    ensures var r := FirstPerWord(entries, seen);
            r[k].base in LemmasOf(entries) && r[k] == entries[IndexOf(LemmasOf(entries), r[k].base)]
    decreases |entries|
  {
    var r := FirstPerWord(entries, seen);
    var e := entries[0];
    var tail := LemmasOf(entries[1..]);
    LemmasOfCons(e, entries[1..]);
    assert entries == [e] + entries[1..];
    var x := r[k].base;
    if e.base in seen {
      assert r == FirstPerWord(entries[1..], seen);
      FirstPerWordFirstWins(entries[1..], seen, k);
      assert x !in seen;
      IndexOfCons(e.base, tail, x);
    } else if k > 0 {
      var rest := FirstPerWord(entries[1..], seen + {e.base});
      assert r == [e] + rest && r[k] == rest[k - 1];
      FirstPerWordFirstWins(entries[1..], seen + {e.base}, k - 1);
      assert x !in seen + {e.base};
      IndexOfCons(e.base, tail, x);
    } else {
      assert r[0] == e;
    }
  }

  /** `RuleBasedNormalizer.normalize_text(text, word_exists)`: candidate
      tokens are kept from both token sequences, position `i` of the lemma
      sequence is paired with position `i` of the surface sequence, and one
      entry is kept per chosen word. */
  function NormalizeText(seg: Segmenter, text: string, wordExists: Option<string -> bool>): (r: seq<NormalizedCandidate>)
    ensures NoDups(LemmasOf(r))
    ensures var lemmas := Keep(seg.lemmaTokens(text), seg.isCandidate);
            var all := Entries(Keep(seg.tokens(text), seg.isCandidate), lemmas, wordExists);
            |r| <= |lemmas| && IsSubseq(r, all) &&
            forall w :: w in LemmasOf(r) <==> w in LemmasOf(all)
  {
    var lemmas := Keep(seg.lemmaTokens(text), seg.isCandidate);
    var all := Entries(Keep(seg.tokens(text), seg.isCandidate), lemmas, wordExists);
    FirstPerWordDedup(all, {});
    var r := FirstPerWord(all, {});
    r
  }

  /** tests/test_normalization.py:29-38: the oracle rejects the lemma 役立つ
      but confirms the surface 役立たず, which is kept as dictionary_validated. */
  lemma SurfaceValidatedExample()
    ensures var r := FirstPerWord(Entries(["役立たず"], ["役立つ"], Some((w: string) => w == "役立たず")), {});
            |r| == 1 && r[0].base == "役立たず" && r[0].reason == DictionaryValidated
  {
    var oracle := (w: string) => w == "役立たず";
    var all := Entries(["役立たず"], ["役立つ"], Some(oracle));
    assert !Confirmed(oracle, "役立つ");
    assert all[0].base == "役立たず";
    assert all[1..] == [];
  }
}

=== FILE: review.dfy ===
/** The decision part of review.py: which scanned candidates are approved,
    how the source's seen-word list grows, and how manual exclusions are
    merged into the known-words list. */
module Review {
  import opened Wrappers
  import opened Seqs
  import opened Text
  import opened Sorting
  import opened Filtering
  import D = Dedup

  /** Every line of a words file, stripped. */
  function StripAll(lines: seq<string>): (r: seq<string>)
    ensures |r| == |lines|
    ensures forall k :: 0 <= k < |r| ==> r[k] == Strip(lines[k])
  {
    seq(|lines|, k requires 0 <= k < |lines| => Strip(lines[k]))
  }

  /** The words of a words file given as its lines (`_load_words_file`): every
      line stripped, blank lines dropped. */
  function LoadWordList(lines: seq<string>): (r: seq<string>)
    ensures forall w :: w in r <==> w != "" && w in StripAll(lines)
  {
    Without(StripAll(lines), {""})
  }

  /** Loaded words are non-empty and already stripped. */
  lemma LoadWordListStripped(lines: seq<string>, w: string)
    requires w in LoadWordList(lines)
    ensures w != "" && Strip(w) == w
  {
    var k :| 0 <= k < |lines| && StripAll(lines)[k] == w;
    StripFixed(w);
  }

  /** `_append_known_words(path, words)` over the file's lines: nothing is
      written when there is no word; otherwise the new file holds the sorted,
      distinct union of the existing words and the new ones. */
  function AppendKnownWords(existing: seq<string>, words: seq<string>): (r: Option<seq<string>>)
    ensures r.None? <==> words == []
    ensures r.Some? ==> WordsSorted(r.value) && Elems(r.value) == Elems(LoadWordList(existing)) + Elems(words)
  {
    if words == [] then None else Some(SortWords(LoadWordList(existing) + words))
  }

  /** The text `_append_known_words` writes: the words joined by "\n", with
      a final "\n". */
  function FileText(words: seq<string>): string {
    Join(words, "\n") + "\n"
  }

  /** Appending the same words again to the file just written, read back
      with `splitlines`, writes the same list. The words must not hold a line
      break: the written file would split such a word into several. */
  lemma AppendKnownWordsIdempotent(text: string, words: seq<string>)
    requires words != []
    requires forall k :: 0 <= k < |words| ==> words[k] != "" && Strip(words[k]) == words[k] && NoLineBreak(words[k])
    ensures var first := AppendKnownWords(SplitLines(text), words);
            AppendKnownWords(SplitLines(FileText(first.value)), words) == first
  {
    var existing := SplitLines(text);
    var file := AppendKnownWords(existing, words).value;
    FileNoLineBreak(existing, words, file);
    assert words[0] in Elems(file);
    SplitLinesJoin(file);
    LoadWordListOfWords(file, existing, words);
    var next := AppendKnownWords(file, words).value;
    assert Elems(next) == Elems(file);
    WordsSortedUnique(next, file);
  }

  /** A file of loaded and new words, none with a line break, has no word
      with a line break. */
  lemma FileNoLineBreak(existing: seq<string>, words: seq<string>, file: seq<string>)
    requires forall k :: 0 <= k < |existing| ==> NoLineBreak(existing[k])
    requires forall k :: 0 <= k < |words| ==> NoLineBreak(words[k])
    requires Elems(file) == Elems(LoadWordList(existing)) + Elems(words)
    ensures forall k :: 0 <= k < |file| ==> NoLineBreak(file[k])
  {
    forall k | 0 <= k < |file| ensures NoLineBreak(file[k]) {
      assert file[k] in Elems(file);
      if file[k] in LoadWordList(existing) {
        LoadWordListNoLineBreak(existing, file[k]);
      } else {
        assert file[k] in words;
      }
    }
  }

  /** Words loaded from lines without a line break have none either. */
  lemma LoadWordListNoLineBreak(lines: seq<string>, w: string)
    requires forall k :: 0 <= k < |lines| ==> NoLineBreak(lines[k])
    requires w in LoadWordList(lines)
    ensures NoLineBreak(w)
  {
    var k :| 0 <= k < |lines| && StripAll(lines)[k] == w;
    StripNoLineBreak(lines[k]);
  }

  /** Reading back a file of loaded and stripped words gives the same words. */
  lemma LoadWordListOfWords(file: seq<string>, existing: seq<string>, words: seq<string>)
    requires forall k :: 0 <= k < |words| ==> words[k] != "" && Strip(words[k]) == words[k]
    requires Elems(file) == Elems(LoadWordList(existing)) + Elems(words)
    ensures Elems(LoadWordList(file)) == Elems(file)
  {
    forall k | 0 <= k < |file| ensures file[k] != "" && Strip(file[k]) == file[k] {
      assert file[k] in Elems(file);
      if file[k] in LoadWordList(existing) {
        LoadWordListStripped(existing, file[k]);
      } else {
        assert file[k] in words;
      }
    }
    LoadWordListFixed(file);
  }

  /** A list of non-empty stripped words loads as itself, blank-free. */
  lemma LoadWordListFixed(file: seq<string>)
    requires forall k :: 0 <= k < |file| ==> file[k] != "" && Strip(file[k]) == file[k]
    ensures LoadWordList(file) == file
  {
    assert StripAll(file) == file;
    WithoutNone(file, {""});
  }

  /** What a review produces besides the review artifact's header fields. */
  datatype ReviewOutcome = ReviewOutcome(
    initialCount: nat,
    approved: seq<string>,
    excludedManual: seq<string>,
    seenWords: seq<string>,
    knownWords: Option<seq<string>>)

  /** Everything a review drops: particles, known words, seen words and the
      manual exclusions. */
  function Dropped(known: set<string>, seen: set<string>, manual: set<string>): set<string> {
    DefaultParticles + known + seen + manual
  }

  /** `run_review` without its files. The approved list is the candidates
      filtered, cleared of seen words and repeats, then of manual exclusions;
      equivalently, the first-seen deduplication of the candidates against
      everything dropped. The saved seen list is the sorted union of the old
      seen words and the approved ones; the known-words file changes only
      when asked to save non-empty manual exclusions. */
  method RunReview(candidates: seq<string>, knownLines: seq<string>, seenList: seq<string>,
                   exclude: Option<seq<string>>, saveExcludedToKnown: bool) returns (r: ReviewOutcome)
    ensures var manual := Elems(exclude.GetOr([]));
            r.approved == DedupFrom(candidates, Dropped(Elems(LoadWordList(knownLines)), Elems(seenList), manual))
    ensures NoDups(r.approved) && IsSubseq(r.approved, candidates)
    ensures forall x :: x in r.approved <==>
      x in candidates && x !in Dropped(Elems(LoadWordList(knownLines)), Elems(seenList), Elems(exclude.GetOr([])))
    ensures r.initialCount == |candidates|
    ensures WordsSorted(r.excludedManual) && Elems(r.excludedManual) == Elems(exclude.GetOr([]))
    ensures WordsSorted(r.seenWords) && Elems(r.seenWords) == Elems(seenList) + Elems(r.approved)
    ensures !saveExcludedToKnown ==> r.knownWords.None?
    ensures saveExcludedToKnown ==> r.knownWords == AppendKnownWords(knownLines, exclude.GetOr([]))
  {
    var known := Elems(LoadWordList(knownLines));
    var seen := Elems(seenList);
    var manual := Elems(exclude.GetOr([]));
    var filtered := FilterTokens(candidates, known);
    var deduped := D.ExcludeSeen(filtered, seen);
    var approved := Without(deduped, manual);
    ApprovedIsDedup(candidates, known, seen, manual);
    var knownWords := if saveExcludedToKnown then AppendKnownWords(knownLines, exclude.GetOr([])) else None;
    r := ReviewOutcome(|candidates|, approved, SortWords(exclude.GetOr([])),
                       SortWords(seenList + approved), knownWords);
  }

  /** Filtering, then clearing seen words and repeats, then dropping manual
      exclusions is one first-seen deduplication against everything dropped. */
  lemma ApprovedIsDedup(candidates: seq<string>, known: set<string>, seen: set<string>, manual: set<string>)
    ensures Without(DedupFrom(FilterTokens(candidates, known), seen), manual)
         == DedupFrom(candidates, Dropped(known, seen, manual))
    ensures IsSubseq(DedupFrom(candidates, Dropped(known, seen, manual)), candidates)
  {
    DedupFromWithout(candidates, DefaultParticles + known, seen);
    assert seen + (DefaultParticles + known) == DefaultParticles + known + seen;
    WithoutDedupFrom(candidates, manual, DefaultParticles + known + seen);
    DedupFromSubseq(candidates, Dropped(known, seen, manual));
  }

  /** Reviewing the same candidates again with the updated seen words
      approves nothing. */
  lemma ReviewAgainApprovesNothing(candidates: seq<string>, known: set<string>, seen: set<string>, manual: set<string>)
    ensures var approved := DedupFrom(candidates, Dropped(known, seen, manual));
            DedupFrom(candidates, Dropped(known, seen + Elems(approved), manual)) == []
  {
    var approved := DedupFrom(candidates, Dropped(known, seen, manual));
    forall k | 0 <= k < |candidates| ensures candidates[k] in Dropped(known, seen + Elems(approved), manual) {
      if candidates[k] !in Dropped(known, seen, manual) {
        assert candidates[k] in approved;
      }
    }
    DedupFromCovered(candidates, Dropped(known, seen + Elems(approved), manual));
  }

  /** tests/test_review_command.py:11-46: with 勇者 known, the known word and
      the particle は are dropped and 冒険 alone is approved. */
  lemma ApprovedExample(drop: set<string>)
    requires drop == Dropped({"勇者"}, {}, {})
    ensures DedupFrom(["勇者", "は", "冒険"], drop) == ["冒険"]
  {
    assert "勇者" in drop && "は" in drop && "冒険" !in drop;
    DedupFromCons("勇者", ["は", "冒険"], drop);
    DedupFromCons("は", ["冒険"], drop);
    DedupFromCons("冒険", [], drop);
  }
}

=== FILE: scan.dfy ===
/** The word-level part of scan.py: fusing adjacent tokens into compounds the
    dictionaries know, the memoised "word exists" test, and the per-image and
    per-run candidate lists of `run_scan`. */
module Scan {
  import opened Wrappers
  import opened Seqs
  import opened Normalization

  /** The negative auxiliaries that may close a compound although they are
      not candidate tokens themselves. */
  const NegativeAuxiliaries: set<string> := {"ず", "ぬ"}

  /** Tokens `i` and `i + 1` fuse: the left one is a candidate, the right one
      is a candidate or a negative auxiliary, and the oracle accepts the
      concatenation. */
  predicate Mergeable(tokens: seq<string>, candidates: set<string>, oracle: string -> bool, i: int) {
    && 0 <= i < |tokens| - 1
    && tokens[i] in candidates
    && (tokens[i + 1] in candidates || tokens[i + 1] in NegativeAuxiliaries)
    && oracle(tokens[i] + tokens[i + 1])
  }

  /** `x` is the compound of some fusable adjacent pair at or after `i`. */
  predicate CompoundAt(tokens: seq<string>, candidates: set<string>, oracle: string -> bool, i: int, x: string) {
    exists j :: i <= j < |tokens| - 1 && Mergeable(tokens, candidates, oracle, j) && x == tokens[j] + tokens[j + 1]
  }

  /** The `merged` list of `_merge_compound_candidates`, from pair `i` on. */
  function MergedFrom(tokens: seq<string>, candidates: set<string>, oracle: string -> bool, i: nat): (r: seq<string>)
    ensures forall x :: x in r <==> CompoundAt(tokens, candidates, oracle, i, x)
    decreases |tokens| - i
  {
    if i + 1 >= |tokens| then []
    else
      var rest := MergedFrom(tokens, candidates, oracle, i + 1);
      if Mergeable(tokens, candidates, oracle, i) then [tokens[i] + tokens[i + 1]] + rest else rest
  }

  /** `_merge_compound_candidates(token_sequence, candidate_set, exists_fn)`:
      the distinct compounds of fusable adjacent pairs, in order of first
      appearance; only neighbours are ever combined. */
  function MergeCompounds(tokens: seq<string>, candidates: set<string>, oracle: string -> bool): (r: seq<string>)
    ensures NoDups(r)
    ensures forall x :: x in r <==>
      exists j :: 0 <= j < |tokens| - 1 && Mergeable(tokens, candidates, oracle, j) && x == tokens[j] + tokens[j + 1]
    ensures |tokens| < 2 ==> r == []
  {
    Dedup(MergedFrom(tokens, candidates, oracle, 0))
  }

  /** Each compound is listed at its first fusable pair: the result is the
      first-seen deduplication of the compounds in pair order. */
  lemma MergeCompoundsOrder(tokens: seq<string>, candidates: set<string>, oracle: string -> bool)
    ensures FirstSeenOrder(MergeCompounds(tokens, candidates, oracle), MergedFrom(tokens, candidates, oracle, 0))
  {
    DedupFromOrder(MergedFrom(tokens, candidates, oracle, 0), {});
  }

  /** Example: 食い + が is not fused because が is no candidate, and
      無駄飯 + 食い is fused when the dictionary knows 無駄飯食い. */
  lemma MergeCompoundsExample()
    ensures MergeCompounds(["無駄飯", "食い", "が"], {"無駄飯", "食い"}, (w: string) => w == "無駄飯食い") == ["無駄飯食い"]
  {
    var tokens := ["無駄飯", "食い", "が"];
    var oracle := (w: string) => w == "無駄飯食い";
    assert !Mergeable(tokens, {"無駄飯", "食い"}, oracle, 1);
    assert Mergeable(tokens, {"無駄飯", "食い"}, oracle, 0);
    assert MergedFrom(tokens, {"無駄飯", "食い"}, oracle, 1) == [];
  }

  /** The two dictionaries behind `word_exists`: whether the offline JSON
      dictionary and the online dictionary have an exact entry for a word. */
  datatype Dictionaries = Dictionaries(offline: string -> bool, online: string -> bool) {
    /** A word exists when either dictionary has it, offline first. */
    predicate Hit(w: string) {
      offline(w) || online(w)
    }

    /** `Hit` as the `string -> bool` test the scan is given. */
    function Test(): string -> bool {
      (w: string) => Hit(w)
    }
  }

  /** Every cached answer is the dictionaries' answer. */
  predicate Consistent(cache: map<string, bool>, d: Dictionaries) {
    forall w :: w in cache ==> cache[w] == d.Hit(w)
  }

  /** One call of the `word_exists` closure: the answer and the new cache. */
  datatype Lookup = Lookup(hit: bool, cache: map<string, bool>)

  /** `word_exists(word)` with the memo `exists_cache`: a cached word is
      answered from the cache; otherwise the dictionaries are asked and the
      answer is recorded. The cache only grows, never changes an entry, and
      stays consistent with the dictionaries, so every answer equals the
      dictionaries' answer. */
  function WordExists(d: Dictionaries, cache: map<string, bool>, w: string): (r: Lookup)
    ensures w in cache ==> r.hit == cache[w]
    ensures w in r.cache && r.cache[w] == r.hit
    ensures r.cache.Keys == cache.Keys + {w}
    ensures forall v :: v in cache ==> r.cache[v] == cache[v]
    ensures Consistent(cache, d) ==> Consistent(r.cache, d) && r.hit == d.Hit(w)
  {
    if w in cache then Lookup(cache[w], cache)
    else
      var hit := d.offline(w) || d.online(w);
      Lookup(hit, cache[w := hit])
  }

  /** `_merge_compound_candidates` driven by the memoising closure, threading
      the cache from pair `i` on. */
  function MergedFromCached(tokens: seq<string>, candidates: set<string>, d: Dictionaries,
                            cache: map<string, bool>, i: nat): (r: (seq<string>, map<string, bool>))
    ensures cache.Keys <= r.1.Keys
    ensures forall v :: v in cache ==> r.1[v] == cache[v]
    decreases |tokens| - i
  {
    if i + 1 >= |tokens| then ([], cache)
    else
      var left := tokens[i];
      var right := tokens[i + 1];
      if left !in candidates || (right !in candidates && right !in NegativeAuxiliaries) then
        MergedFromCached(tokens, candidates, d, cache, i + 1)
      else
        var look := WordExists(d, cache, left + right);
        var rest := MergedFromCached(tokens, candidates, d, look.cache, i + 1);
        if look.hit then ([left + right] + rest.0, rest.1) else rest
  }

  /** The memo is transparent: starting from a cache consistent with the
      dictionaries, the cached merge gives what the merge with the plain
      dictionary test gives, and leaves a consistent cache. */
  lemma {:induction false} MergedFromCachedAgrees(tokens: seq<string>, candidates: set<string>, d: Dictionaries,
                                                 cache: map<string, bool>, i: nat)
    requires Consistent(cache, d)
    ensures var r := MergedFromCached(tokens, candidates, d, cache, i);
            r.0 == MergedFrom(tokens, candidates, d.Test(), i) && Consistent(r.1, d)
    decreases |tokens| - i
  {
    if i + 1 < |tokens| {
      var left := tokens[i];
      var right := tokens[i + 1];
      if left !in candidates || (right !in candidates && right !in NegativeAuxiliaries) {
        MergedFromCachedAgrees(tokens, candidates, d, cache, i + 1);
      } else {
        var look := WordExists(d, cache, left + right);
        MergedFromCachedAgrees(tokens, candidates, d, look.cache, i + 1);
      }
    }
  }

  /** An OCR provider: one with `extract_text_candidates` yields ranked
      alternative texts for an image (asked for the top 8), any other yields
      the single text of `extract_text`. */
  datatype OcrProvider =
    | MultiCandidate(extractTextCandidates: (string, nat) -> seq<string>)
    | SingleText(extractText: string -> string)

  const TopN: nat := 8

  /** The OCR texts of one image (scan.py:87-90). */
  function TextsOf(provider: OcrProvider, image: string): (texts: seq<string>)
    ensures provider.SingleText? ==> |texts| == 1
  {
    match provider
    case MultiCandidate(f) => f(image, TopN)
    case SingleText(f) => [f(image)]
  }

  /** The candidates one OCR text contributes, before deduplication: the
      chosen words of the normalizer (asked without an oracle), then the
      compounds of its surface tokens. */
  function TextCandidates(seg: Segmenter, oracle: string -> bool, text: string): seq<string> {
    var tokens := seg.tokens(text);
    LemmasOf(NormalizeText(seg, text, None)) + MergeCompounds(tokens, Elems(Keep(tokens, seg.isCandidate)), oracle)
  }

  /** The record `run_scan` writes for one image. */
  datatype ImageRecord = ImageRecord(
    image: string,
    text: string,
    alternateTexts: seq<string>,
    surfaceTokens: seq<string>,
    normalized: seq<NormalizedCandidate>,
    candidates: seq<string>)

  /** The first non-empty token sequence among the texts, or `[]`. */
  function PrimaryTokens(seg: Segmenter, texts: seq<string>): (r: seq<string>)
    ensures r == [] <==> forall k :: 0 <= k < |texts| ==> seg.tokens(texts[k]) == []
    ensures r != [] ==> exists k :: 0 <= k < |texts| && r == seg.tokens(texts[k]) &&
                                   forall m :: 0 <= m < k ==> seg.tokens(texts[m]) == []
    decreases |texts|
  {
    if texts == [] then []
    else if seg.tokens(texts[0]) != [] then seg.tokens(texts[0])
    else
      var r := PrimaryTokens(seg, texts[1..]);
      assert forall k :: 0 < k < |texts| ==> texts[k] == texts[1..][k - 1];
      if r != [] then
        var k :| 0 <= k < |texts[1..]| && r == seg.tokens(texts[1..][k]) &&
                 forall m :: 0 <= m < k ==> seg.tokens(texts[1..][m]) == [];
        assert r == seg.tokens(texts[k + 1]);
        r
      else r
  }

  /** Flattened normalizer entries of every text, in order. */
  function AllNormalized(seg: Segmenter, texts: seq<string>): seq<NormalizedCandidate>
    decreases |texts|
  {
    if texts == [] then [] else NormalizeText(seg, texts[0], None) + AllNormalized(seg, texts[1..])
  }

  /** The raw candidate lists of every text. */
  function RawCandidates(seg: Segmenter, oracle: string -> bool, texts: seq<string>): (r: seq<seq<string>>)
    ensures |r| == |texts|
  {
    seq(|texts|, k requires 0 <= k < |texts| => TextCandidates(seg, oracle, texts[k]))
  }

  /** The candidates of an image are those of any of its texts, once each,
      in the order in which they first appear text by text. */
  lemma ImageCandidates(seg: Segmenter, oracle: string -> bool, texts: seq<string>)
    ensures var r := Dedup(Flatten(RawCandidates(seg, oracle, texts)));
            NoDups(r) && forall x :: x in r <==> exists k :: 0 <= k < |texts| && x in TextCandidates(seg, oracle, texts[k])
    ensures FirstSeenOrder(Dedup(Flatten(RawCandidates(seg, oracle, texts))), Flatten(RawCandidates(seg, oracle, texts)))
  {
    var raw := RawCandidates(seg, oracle, texts);
    DedupFromOrder(Flatten(raw), {});
    assert forall k :: 0 <= k < |texts| ==> raw[k] == TextCandidates(seg, oracle, texts[k]);
  }

  /** One iteration of the image loop of `run_scan`. */
  function ScanImage(seg: Segmenter, oracle: string -> bool, image: string, texts: seq<string>): (r: ImageRecord)
    ensures r.text == if texts == [] then "" else texts[0]
    ensures |r.alternateTexts| <= 5
    ensures |texts| <= 1 ==> r.alternateTexts == []
    ensures |texts| > 1 ==> r.alternateTexts == texts[1..if |texts| < 6 then |texts| else 6]
    ensures r.image == image && r.surfaceTokens == PrimaryTokens(seg, texts) && r.normalized == AllNormalized(seg, texts)
    ensures NoDups(r.candidates)
    ensures forall x :: x in r.candidates <==> exists k :: 0 <= k < |texts| && x in TextCandidates(seg, oracle, texts[k])
    ensures FirstSeenOrder(r.candidates, Flatten(RawCandidates(seg, oracle, texts)))
  {
    var raw := RawCandidates(seg, oracle, texts);
    ImageCandidates(seg, oracle, texts);
    ImageRecord(
      image,
      if texts == [] then "" else texts[0],
      if |texts| <= 1 then [] else texts[1..if |texts| < 6 then |texts| else 6],
      PrimaryTokens(seg, texts),
      AllNormalized(seg, texts),
      Dedup(Flatten(raw)))
  }

  datatype ScanError = NoImageFiles | UnsupportedOnlineMode

  /** The online dictionary selected by the `online_dict` option: "off" is the
      null dictionary that knows no word, "jisho" is the online service
      (given here as a parameter), anything else is rejected. */
  function OnlineDictionary(mode: string, jisho: string -> bool): (r: Result<string -> bool, ScanError>)
    ensures r.Err? <==> mode != "off" && mode != "jisho"
    ensures r.Ok? && mode == "off" ==> forall w :: !r.value(w)
    ensures r.Ok? && mode == "jisho" ==> r.value == jisho
  {
    if mode == "off" then Ok((w: string) => false)
    else if mode == "jisho" then Ok(jisho)
    else Err(UnsupportedOnlineMode)
  }

  datatype ScanSummary = ScanSummary(imageCount: nat, records: seq<ImageRecord>, candidates: seq<string>)

  /** The record of every image, in order. */
  function Records(seg: Segmenter, oracle: string -> bool, provider: OcrProvider, images: seq<string>)
    : (r: seq<ImageRecord>)
    ensures |r| == |images|
    ensures forall k :: 0 <= k < |r| ==> r[k].image == images[k]
    ensures forall k :: 0 <= k < |r| ==> r[k] == ScanImage(seg, oracle, images[k], TextsOf(provider, images[k]))
  {
    seq(|images|, k requires 0 <= k < |images| => ScanImage(seg, oracle, images[k], TextsOf(provider, images[k])))
  }

  function CandidatesOf(records: seq<ImageRecord>): (r: seq<seq<string>>)
    ensures |r| == |records|
  {
    seq(|records|, k requires 0 <= k < |records| => records[k].candidates)
  }

  /** The run's candidates are those of any image, once each, in the order in
      which they first appear image by image. */
  lemma RunCandidates(records: seq<ImageRecord>)
    ensures var all := CandidatesOf(records);
            var r := Dedup(Flatten(all));
            && NoDups(r)
            && (forall x :: x in r <==> exists k :: 0 <= k < |records| && x in records[k].candidates)
            && FirstSeenOrder(r, Flatten(all))
  {
    var all := CandidatesOf(records);
    assert forall k :: 0 <= k < |records| ==> all[k] == records[k].candidates;
    DedupFromOrder(Flatten(all), {});
  }

  /** `run_scan` without its file system: an empty image list is an error
      (checked first), then an unknown online mode; otherwise every image is
      scanned and the run's candidates are the distinct candidates of all
      images in order of first appearance. */
  function RunScan(seg: Segmenter, provider: OcrProvider, offline: string -> bool, jisho: string -> bool,
                   onlineMode: string, images: seq<string>): (r: Result<ScanSummary, ScanError>)
    ensures images == [] ==> r == Err(NoImageFiles)
    ensures images != [] ==> (r.Err? <==> OnlineDictionary(onlineMode, jisho).Err?)
    ensures images != [] && OnlineDictionary(onlineMode, jisho).Err? ==> r == Err(UnsupportedOnlineMode)
    ensures r.Ok? ==> r.value.imageCount == |images| == |r.value.records|
    ensures r.Ok? ==> NoDups(r.value.candidates)
    ensures r.Ok? ==> forall x :: x in r.value.candidates <==>
      exists k :: 0 <= k < |images| && x in r.value.records[k].candidates
    ensures r.Ok? ==> FirstSeenOrder(r.value.candidates, Flatten(CandidatesOf(r.value.records)))
    ensures r.Ok? ==> r.value.records
                      == Records(seg, Dictionaries(offline, OnlineDictionary(onlineMode, jisho).value).Test(), provider, images)
  {
    if images == [] then Err(NoImageFiles)
    else
      match OnlineDictionary(onlineMode, jisho)
      case Err(e) => Err(e)
      case Ok(online) =>
        var d := Dictionaries(offline, online);
        var records := Records(seg, d.Test(), provider, images);
        var all := CandidatesOf(records);
        RunCandidates(records);
        Ok(ScanSummary(|images|, records, Dedup(Flatten(all))))
  }

  /** Deduplicating per image first changes nothing at run level: the run's
      candidates are the first-seen deduplication of every text's raw
      candidates, image by image, and so follow the order in which those
      raw candidates first appear. */
  lemma RunScanCandidates(seg: Segmenter, oracle: string -> bool, provider: OcrProvider, images: seq<string>)
    ensures var records := Records(seg, oracle, provider, images);
            Dedup(Flatten(CandidatesOf(records)))
            == Dedup(Flatten(seq(|images|, k requires 0 <= k < |images| =>
                                   Flatten(RawCandidates(seg, oracle, TextsOf(provider, images[k]))))))
    ensures var records := Records(seg, oracle, provider, images);
            FirstSeenOrder(Dedup(Flatten(CandidatesOf(records))),
                           Flatten(seq(|images|, k requires 0 <= k < |images| =>
                                         Flatten(RawCandidates(seg, oracle, TextsOf(provider, images[k]))))))
  {
    var records := Records(seg, oracle, provider, images);
    var raw := seq(|images|, k requires 0 <= k < |images| =>
                     Flatten(RawCandidates(seg, oracle, TextsOf(provider, images[k]))));
    assert CandidatesOf(records) == DedupEach(raw);
    DedupFlattenEach(raw);
    DedupFromOrder(Flatten(raw), {});
  }
}

=== FILE: seqs.dfy ===
/** Sequence vocabulary shared by every stage: first-seen deduplication (the
    `seen` set plus `append` loop and `dict.fromkeys` that recur throughout
    the pipeline), order-preserving filters, and concatenation of lists. */
module Seqs {

  /** No value occurs twice. */
  predicate NoDups<T(==,!new)>(s: seq<T>) {
    forall i, j :: 0 <= i < j < |s| ==> s[i] != s[j]
  }

  /** The values of a list, as a set. */
  function Elems<T(!new)>(s: seq<T>): set<T> {
    set x | x in s
  }

  /** Only the empty list has no values. */
  lemma ElemsEmpty<T(!new)>(s: seq<T>)
    ensures Elems(s) == {} <==> s == []
  {
    if s != [] {
      assert s[0] in Elems(s);
    }
  }

  /** The values of a non-empty list are those before its last one, plus
      the last one. */
  lemma LastElems<T(!new)>(s: seq<T>)
    requires s != []
    ensures Elems(s) == Elems(s[..|s| - 1]) + {s[|s| - 1]}
  {
    assert s == s[..|s| - 1] + [s[|s| - 1]];
  }

  /** `a` can be obtained from `b` by deleting elements (order is kept). */
  predicate IsSubseq<T(==,!new)>(a: seq<T>, b: seq<T>)
    decreases |b|
  {
    if a == [] then true
    else if b == [] then false
    else (a[0] == b[0] && IsSubseq(a[1..], b[1..])) || IsSubseq(a, b[1..])
  }

  /** Position of the first occurrence of `x` in `s`. */
  function IndexOf<T(==,!new)>(s: seq<T>, x: T): (i: nat)
    requires x in s
    ensures i < |s| && s[i] == x && x !in s[..i]
  {
    if s[0] == x then 0
    else
      var j := IndexOf(s[1..], x);
      assert s[..j + 1] == [s[0]] + s[1..][..j];
      1 + j
  }

  /** Skipping a different head adds one to the position. */
  lemma IndexOfCons<T(!new)>(y: T, t: seq<T>, x: T)
    requires x in t && x != y
    ensures IndexOf([y] + t, x) == 1 + IndexOf(t, x)
  {
    assert ([y] + t)[1..] == t;
  }

  /** Every value of `r` occurs in `s`, and `r` lists its values in the order
      in which they first occur in `s`. */
  predicate FirstSeenOrder<T(==,!new)>(r: seq<T>, s: seq<T>) {
    && (forall x :: x in r ==> x in s)
    && (forall i, j :: 0 <= i < j < |r| ==> IndexOf(s, r[i]) < IndexOf(s, r[j]))
  }

  /** The loop `for t in s: if t in seen: continue; seen.add(t); out.append(t)`
      with `seen` already holding the given values. `dict.fromkeys(s)` is the
      case of an empty `seen`. */
  function DedupFrom<T(==,!new)>(s: seq<T>, seen: set<T>): (r: seq<T>)
    ensures NoDups(r)
    ensures forall x :: x in r <==> x in s && x !in seen
    ensures |r| <= |s|
    decreases |s|
  {
    if s == [] then []
    else if s[0] in seen then DedupFrom(s[1..], seen)
    else [s[0]] + DedupFrom(s[1..], seen + {s[0]})
  }

  /** One step of the deduplication loop. */
  lemma DedupFromCons<T(!new)>(x: T, rest: seq<T>, seen: set<T>)
    ensures DedupFrom([x] + rest, seen)
      == if x in seen then DedupFrom(rest, seen) else [x] + DedupFrom(rest, seen + {x})
  {
    assert ([x] + rest)[1..] == rest;
  }
  /** Nothing survives when every element is already seen. */
  lemma {:induction false} DedupFromCovered<T(!new)>(s: seq<T>, seen: set<T>)
    requires forall k :: 0 <= k < |s| ==> s[k] in seen
    ensures DedupFrom(s, seen) == []
    decreases |s|
  {
    if s != [] {
      DedupFromCons(s[0], s[1..], seen);
      DedupFromCovered(s[1..], seen);
    }
  }


  /** First-seen deduplication: `list(dict.fromkeys(s))`. */
  function Dedup<T(==,!new)>(s: seq<T>): (r: seq<T>)
    ensures NoDups(r)
    ensures forall x :: x in r <==> x in s
  {
    DedupFrom(s, {})
  }

  /** The elements of `s` that are not in `drop`, in order. */
  function Without<T(==,!new)>(s: seq<T>, drop: set<T>): (r: seq<T>)
    ensures forall x :: x in r <==> x in s && x !in drop
    decreases |s|
  {
    if s == [] then []
    else
      var rest := Without(s[1..], drop);
      if s[0] in drop then rest else [s[0]] + rest
  }

  /** Dropping values that do not occur changes nothing. */
  lemma {:induction false} WithoutNone<T(!new)>(s: seq<T>, drop: set<T>)
    requires forall k :: 0 <= k < |s| ==> s[k] !in drop
    ensures Without(s, drop) == s
    decreases |s|
  {
    if s != [] {
      WithoutNone(s[1..], drop);
    }
  }

  /** Filtering keeps every other element as often as it occurs. */
  lemma {:induction false} WithoutCount<T(!new)>(s: seq<T>, drop: set<T>, x: T)
    ensures multiset(Without(s, drop))[x] == if x in drop then 0 else multiset(s)[x]
    decreases |s|
  {
    if s != [] {
      WithoutCount(s[1..], drop, x);
      assert s == [s[0]] + s[1..];
    }
  }

  /** One step of the filter. */
  lemma WithoutCons<T(!new)>(x: T, rest: seq<T>, drop: set<T>)
    ensures Without([x] + rest, drop) == if x in drop then Without(rest, drop) else [x] + Without(rest, drop)
  {
    assert ([x] + rest)[1..] == rest;
  }

  /** The elements of `s` satisfying `keep`, in order. */
  function Keep<T(!new)>(s: seq<T>, keep: T -> bool): (r: seq<T>)
    ensures |r| <= |s|
    ensures forall i :: 0 <= i < |r| ==> keep(r[i])
    ensures forall x :: x in r <==> x in s && keep(x)
    decreases |s|
  {
    if s == [] then []
    else
      var rest := Keep(s[1..], keep);
      assert s == [s[0]] + s[1..];
      if keep(s[0]) then [s[0]] + rest else rest
  }

  /** `[f(x) for x in s if keep(x)]`. */
  function MapKeep<A(!new), B(!new)>(s: seq<A>, keep: A -> bool, f: A -> B): (r: seq<B>)
    ensures forall y :: y in r <==> exists k :: 0 <= k < |s| && keep(s[k]) && y == f(s[k])
    decreases |s|
  {
    if s == [] then []
    else
      var rest := MapKeep(s[1..], keep, f);
      assert forall k :: 0 < k < |s| ==> s[k] == s[1..][k - 1];
      if keep(s[0]) then [f(s[0])] + rest else rest
  }

  /** Concatenation of a list of lists (repeated `extend`). */
  function Flatten<T(!new)>(xss: seq<seq<T>>): (r: seq<T>)
    ensures forall x :: x in r <==> exists k :: 0 <= k < |xss| && x in xss[k]
    decreases |xss|
  {
    if xss == [] then []
    else
      var rest := Flatten(xss[1..]);
      assert forall k :: 0 < k < |xss| ==> xss[k] == xss[1..][k - 1];
      xss[0] + rest
  }

  /** Deduplicates each list separately. */
  function DedupEach<T(==,!new)>(xss: seq<seq<T>>): (r: seq<seq<T>>)
    ensures |r| == |xss|
    ensures forall k :: 0 <= k < |xss| ==> r[k] == Dedup(xss[k])
    decreases |xss|
  {
    if xss == [] then [] else [Dedup(xss[0])] + DedupEach(xss[1..])
  }

  lemma {:induction false} SubseqTrans<T(!new)>(a: seq<T>, b: seq<T>, c: seq<T>)
    requires IsSubseq(a, b) && IsSubseq(b, c)
    ensures IsSubseq(a, c)
    decreases |c|
  {
    if a != [] {
      if b[0] == c[0] && IsSubseq(b[1..], c[1..]) {
        if a[0] == b[0] && IsSubseq(a[1..], b[1..]) {
          SubseqTrans(a[1..], b[1..], c[1..]);
        } else {
          SubseqTrans(a, b[1..], c[1..]);
        }
      } else {
        SubseqTrans(a, b, c[1..]);
      }
    }
  }

  /** Deduplication only deletes elements. */
  lemma {:induction false} DedupFromSubseq<T(!new)>(s: seq<T>, seen: set<T>)
    ensures IsSubseq(DedupFrom(s, seen), s)
    decreases |s|
  {
    if s != [] {
      if s[0] in seen {
        DedupFromSubseq(s[1..], seen);
      } else {
        DedupFromSubseq(s[1..], seen + {s[0]});
      }
    }
  }

  /** The survivors of deduplication keep the order of their first
      occurrences. */
  lemma {:induction false} DedupFromOrder<T(!new)>(s: seq<T>, seen: set<T>)
    ensures FirstSeenOrder(DedupFrom(s, seen), s)
    decreases |s|
  {
    if s != [] {
      if s[0] in seen {
        DedupFromOrder(s[1..], seen);
        OrderPastHead(s, DedupFrom(s[1..], seen));
      } else {
        DedupFromOrder(s[1..], seen + {s[0]});
        OrderPastHead(s, DedupFrom(s[1..], seen + {s[0]}));
      }
    }
  }

  /** A list ordered by first occurrence in the tail of `s` and free of `s`'s
      head stays ordered in `s`, also with the head put in front. */
  lemma OrderPastHead<T(!new)>(s: seq<T>, r: seq<T>)
    requires s != [] && s[0] !in r
    requires FirstSeenOrder(r, s[1..])
    ensures FirstSeenOrder(r, s) && FirstSeenOrder([s[0]] + r, s)
  {
    assert s == [s[0]] + s[1..];
    forall x | x in r ensures IndexOf(s, x) == 1 + IndexOf(s[1..], x) {
      IndexOfCons(s[0], s[1..], x);
    }
    var r' := [s[0]] + r;
    forall i, j | 0 <= i < j < |r'| ensures IndexOf(s, r'[i]) < IndexOf(s, r'[j]) {
      assert r'[j] == r[j - 1];
      if i > 0 {
        assert r'[i] == r[i - 1];
      }
    }
  }

  /** Deduplicating a concatenation: the second part is deduplicated against
      everything already seen in the first. */
  lemma {:induction false} DedupFromAppend<T(!new)>(p: seq<T>, q: seq<T>, seen: set<T>)
    ensures DedupFrom(p + q, seen) == DedupFrom(p, seen) + DedupFrom(q, seen + Elems(p))
    decreases |p|
  {
    if p == [] {
      assert p + q == q;
      assert Elems(p) == {};
      assert seen + Elems(p) == seen;
    } else {
      assert (p + q)[0] == p[0];
      assert (p + q)[1..] == p[1..] + q;
      assert Elems(p) == {p[0]} + Elems(p[1..]);
      if p[0] in seen {
        DedupFromAppend(p[1..], q, seen);
        assert seen + Elems(p) == seen + Elems(p[1..]);
      } else {
        DedupFromAppend(p[1..], q, seen + {p[0]});
        assert seen + {p[0]} + Elems(p[1..]) == seen + Elems(p);
      }
    }
  }

  /** Deduplicating again against a larger seen-set gives the same as one
      pass against the larger set. */
  lemma {:induction false} DedupFromTwice<T(!new)>(s: seq<T>, seen: set<T>, seen': set<T>)
    requires seen <= seen'
    ensures DedupFrom(DedupFrom(s, seen), seen') == DedupFrom(s, seen')
    decreases |s|
  {
    if s != [] {
      if s[0] in seen {
        DedupFromTwice(s[1..], seen, seen');
      } else {
        var inner := DedupFrom(s[1..], seen + {s[0]});
        assert DedupFrom(s, seen) == [s[0]] + inner;
        assert ([s[0]] + inner)[1..] == inner;
        if s[0] in seen' {
          DedupFromTwice(s[1..], seen + {s[0]}, seen');
        } else {
          DedupFromTwice(s[1..], seen + {s[0]}, seen' + {s[0]});
        }
      }
    }
  }

  /** Deduplication is idempotent. */
  lemma DedupIdempotent<T(!new)>(s: seq<T>)
    ensures Dedup(Dedup(s)) == Dedup(s)
  {
    DedupFromTwice(s, {}, {});
  }

  /** A list with no repeats that avoids `seen` is left unchanged. */
  lemma {:induction false} DedupFromNoDups<T(!new)>(s: seq<T>, seen: set<T>)
    requires NoDups(s)
    requires forall x :: x in s ==> x !in seen
    ensures DedupFrom(s, seen) == s
    decreases |s|
  {
    if s != [] {
      assert NoDups(s[1..]) by {
        forall i, j | 0 <= i < j < |s[1..]| ensures s[1..][i] != s[1..][j] {
          assert s[1..][i] == s[i + 1] && s[1..][j] == s[j + 1];
        }
      }
      forall x | x in s[1..] ensures x !in seen + {s[0]} {
        var k :| 0 <= k < |s[1..]| && s[1..][k] == x;
        assert s[k + 1] == x;
      }
      DedupFromNoDups(s[1..], seen + {s[0]});
    }
  }

  /** Filtering before deduplication is the same as starting with the filtered
      values already seen. */
  lemma {:induction false} DedupFromWithout<T(!new)>(s: seq<T>, drop: set<T>, seen: set<T>)
    ensures DedupFrom(Without(s, drop), seen) == DedupFrom(s, seen + drop)
    decreases |s|
  {
    if s != [] {
      var rest := Without(s[1..], drop);
      if s[0] in drop {
        DedupFromWithout(s[1..], drop, seen);
      } else {
        assert Without(s, drop) == [s[0]] + rest;
        assert ([s[0]] + rest)[1..] == rest;
        if s[0] in seen {
          DedupFromWithout(s[1..], drop, seen);
        } else {
          DedupFromWithout(s[1..], drop, seen + {s[0]});
          assert seen + {s[0]} + drop == seen + drop + {s[0]};
        }
      }
    }
  }

  /** Filtering after deduplication is the same as starting with the filtered
      values already seen. */
  lemma {:induction false} WithoutDedupFrom<T(!new)>(s: seq<T>, drop: set<T>, seen: set<T>)
    ensures Without(DedupFrom(s, seen), drop) == DedupFrom(s, seen + drop)
    decreases |s|
  {
    if s != [] {
      if s[0] in seen {
        WithoutDedupFrom(s[1..], drop, seen);
      } else {
        var rest := DedupFrom(s[1..], seen + {s[0]});
        assert DedupFrom(s, seen) == [s[0]] + rest;
        assert ([s[0]] + rest)[1..] == rest;
        WithoutDedupFrom(s[1..], drop, seen + {s[0]});
        assert seen + {s[0]} + drop == seen + drop + {s[0]};
        if s[0] in drop {
          DedupFromTwice(s[1..], seen + drop, seen + drop + {s[0]});
          assert seen + drop + {s[0]} == seen + drop;
        }
      }
    }
  }

  /** Filtering keeps order. */
  lemma {:induction false} WithoutSubseq<T(!new)>(s: seq<T>, drop: set<T>)
    ensures IsSubseq(Without(s, drop), s)
    decreases |s|
  {
    if s != [] {
      WithoutSubseq(s[1..], drop);
    }
  }

  /** Filtering a filtered list changes nothing. */
  lemma {:induction false} WithoutIdempotent<T(!new)>(s: seq<T>, drop: set<T>)
    ensures Without(Without(s, drop), drop) == Without(s, drop)
    decreases |s|
  {
    if s != [] {
      var rest := Without(s[1..], drop);
      WithoutIdempotent(s[1..], drop);
      if s[0] !in drop {
        assert ([s[0]] + rest)[1..] == rest;
      }
    }
  }

  /** Deduplicating each part before concatenating and deduplicating the whole
      changes nothing. */
  lemma {:induction false} DedupFromFlattenEach<T(!new)>(xss: seq<seq<T>>, seen: set<T>)
    ensures DedupFrom(Flatten(DedupEach(xss)), seen) == DedupFrom(Flatten(xss), seen)
    decreases |xss|
  {
    if xss != [] {
      var d := Dedup(xss[0]);
      assert DedupEach(xss) == [d] + DedupEach(xss[1..]);
      assert ([d] + DedupEach(xss[1..]))[1..] == DedupEach(xss[1..]);
      assert Flatten(DedupEach(xss)) == d + Flatten(DedupEach(xss[1..]));
      DedupFromAppend(d, Flatten(DedupEach(xss[1..])), seen);
      DedupFromAppend(xss[0], Flatten(xss[1..]), seen);
      DedupFromTwice(xss[0], {}, seen);
      assert Elems(d) == Elems(xss[0]);
      DedupFromFlattenEach(xss[1..], seen + Elems(xss[0]));
    }
  }

  lemma DedupFlattenEach<T(!new)>(xss: seq<seq<T>>)
    ensures Dedup(Flatten(DedupEach(xss))) == Dedup(Flatten(xss))
  {
    DedupFromFlattenEach(xss, {});
  }

  /** In a list without repeats every member occurs exactly once. */
  lemma {:induction false} NoDupsOnce<T(!new)>(s: seq<T>, x: T)
    requires NoDups(s) && x in s
    ensures multiset(s)[x] == 1
    decreases |s|
  {
    assert s == [s[0]] + s[1..];
    assert NoDups(s[1..]) by {
      forall i, j | 0 <= i < j < |s[1..]| ensures s[1..][i] != s[1..][j] {
        assert s[1..][i] == s[i + 1] && s[1..][j] == s[j + 1];
      }
    }
    if s[0] == x {
      assert x !in s[1..] by {
        forall k | 0 <= k < |s[1..]| ensures s[1..][k] != x {
          assert s[1..][k] == s[k + 1];
        }
      }
    } else {
      NoDupsOnce(s[1..], x);
    }
  }
}

=== FILE: sorting.dfy ===
/** Python's `sorted(set(xs))` for strings (compared code point by code
    point, a proper prefix first) and for integers. */
module Sorting {
  import opened Seqs

  /** Python's `<` on `str`. */
  predicate Less(a: string, b: string)
    decreases |a|
  {
    if a == [] then b != []
    else if b == [] then false
    else if a[0] != b[0] then a[0] < b[0]
    else Less(a[1..], b[1..])
  }

  lemma {:induction false} LessIrreflexive(a: string)
    ensures !Less(a, a)
    decreases |a|
  {
    if a != [] {
      LessIrreflexive(a[1..]);
    }
  }

  lemma {:induction false} LessTotal(a: string, b: string)
    ensures a == b || Less(a, b) || Less(b, a)
    decreases |a|
  {
    if a != [] && b != [] && a[0] == b[0] {
      LessTotal(a[1..], b[1..]);
      if a[1..] == b[1..] {
        assert a == [a[0]] + a[1..] && b == [b[0]] + b[1..];
      }
    }
  }

  lemma {:induction false} LessAsymmetric(a: string, b: string)
    ensures !(Less(a, b) && Less(b, a))
    decreases |a|
  {
    if a != [] && b != [] && a[0] == b[0] {
      LessAsymmetric(a[1..], b[1..]);
    }
  }

  lemma {:induction false} LessTransitive(a: string, b: string, c: string)
    requires Less(a, b) && Less(b, c)
    ensures Less(a, c)
    decreases |a|
  {
    if a != [] && a[0] == b[0] && b[0] == c[0] {
      LessTransitive(a[1..], b[1..], c[1..]);
    }
  }

  predicate WordsSorted(s: seq<string>) {
    forall i, j :: 0 <= i < j < |s| ==> Less(s[i], s[j])
  }

  /** Inserts `x` into a strictly increasing list unless it is already there. */
  function InsertWord(s: seq<string>, x: string): seq<string>
    decreases |s|
  {
    if s == [] then [x]
    else if x == s[0] then s
    else if Less(x, s[0]) then [x] + s
    else [s[0]] + InsertWord(s[1..], x)
  }

  /** Insertion adds exactly `x` to the values. */
  lemma {:induction false} InsertWordElems(s: seq<string>, x: string)
    ensures Elems(InsertWord(s, x)) == Elems(s) + {x}
    decreases |s|
  {
    if s != [] && x != s[0] && !Less(x, s[0]) {
      InsertWordElems(s[1..], x);
      assert s == [s[0]] + s[1..];
      assert Elems(s) == {s[0]} + Elems(s[1..]);
      assert Elems([s[0]] + InsertWord(s[1..], x)) == {s[0]} + Elems(InsertWord(s[1..], x));
    } else if s != [] && x != s[0] {
      assert Elems([x] + s) == {x} + Elems(s);
    }
  }

  /** A head below every value of a strictly increasing list keeps it
      strictly increasing. */
  lemma WordsSortedCons(h: string, s: seq<string>)
    requires WordsSorted(s)
    requires forall y :: y in s ==> Less(h, y)
    ensures WordsSorted([h] + s)
  {
    var r := [h] + s;
    forall i, j | 0 <= i < j < |r| ensures Less(r[i], r[j]) {
      assert r[j] == s[j - 1] && s[j - 1] in s;
      if i > 0 {
        assert r[i] == s[i - 1];
      }
    }
  }

  /** The tail of a strictly increasing list is strictly increasing and
      above its head. */
  lemma WordsSortedTail(s: seq<string>)
    requires s != [] && WordsSorted(s)
    ensures WordsSorted(s[1..])
    ensures forall y :: y in s[1..] ==> Less(s[0], y)
  {
    forall y | y in s[1..] ensures Less(s[0], y) {
      var j :| 0 <= j < |s[1..]| && s[1..][j] == y;
      assert s[j + 1] == y;
    }
  }

  /** Insertion keeps a list strictly increasing. */
  lemma {:induction false} InsertWordSorted(s: seq<string>, x: string)
    requires WordsSorted(s)
    ensures WordsSorted(InsertWord(s, x))
    decreases |s|
  {
    if s == [] {
    } else if x == s[0] {
    } else if Less(x, s[0]) {
      WordsSortedTail(s);
      forall y | y in s ensures Less(x, y) {
        if y != s[0] {
          LessTransitive(x, s[0], y);
        }
      }
      WordsSortedCons(x, s);
    } else {
      LessTotal(x, s[0]);
      WordsSortedTail(s);
      InsertWordSorted(s[1..], x);
      InsertWordElems(s[1..], x);
      var rest := InsertWord(s[1..], x);
      assert forall y :: y in rest ==> y in Elems(rest);
      WordsSortedCons(s[0], rest);
    }
  }

  /** `sorted(set(s))` for strings: strictly increasing, same values as `s`. */
  function SortWords(s: seq<string>): (r: seq<string>)
    ensures WordsSorted(r)
    ensures Elems(r) == Elems(s)
    decreases |s|
  {
    if s == [] then []
    else
      var init := SortWords(s[..|s| - 1]);
      var x := s[|s| - 1];
      InsertWordSorted(init, x);
      InsertWordElems(init, x);
      LastElems(s);
      InsertWord(init, x)
  }

  /** A strictly increasing list is determined by its set of values. */
  lemma {:induction false} WordsSortedUnique(a: seq<string>, b: seq<string>)
    requires WordsSorted(a) && WordsSorted(b)
    requires Elems(a) == Elems(b)
    ensures a == b
    decreases |a|
  {
    if a == [] {
      ElemsEmpty(a);
      ElemsEmpty(b);
    } else {
      assert a[0] in Elems(b);
      assert b != [];
      if a[0] != b[0] {
        assert b[0] in Elems(a);
        var i :| 0 <= i < |a| && a[i] == b[0];
        var j :| 0 <= j < |b| && b[j] == a[0];
        assert Less(a[0], b[0]);
        assert Less(b[0], a[0]);
        LessAsymmetric(a[0], b[0]);
      }
      assert Elems(a[1..]) == Elems(a) - {a[0]} by {
        assert a == [a[0]] + a[1..];
        forall k | 0 < k < |a| ensures a[k] != a[0] {
          LessIrreflexive(a[0]);
        }
      }
      assert Elems(b[1..]) == Elems(b) - {b[0]} by {
        assert b == [b[0]] + b[1..];
        forall k | 0 < k < |b| ensures b[k] != b[0] {
          LessIrreflexive(b[0]);
        }
      }
      assert WordsSorted(a[1..]) by {
        forall i, j | 0 <= i < j < |a[1..]| ensures Less(a[1..][i], a[1..][j]) {
          assert a[1..][i] == a[i + 1] && a[1..][j] == a[j + 1];
        }
      }
      assert WordsSorted(b[1..]) by {
        forall i, j | 0 <= i < j < |b[1..]| ensures Less(b[1..][i], b[1..][j]) {
          assert b[1..][i] == b[i + 1] && b[1..][j] == b[j + 1];
        }
      }
      WordsSortedUnique(a[1..], b[1..]);
      assert a == [a[0]] + a[1..] && b == [b[0]] + b[1..];
    }
  }

  /** Like `sorted(set(s))`, the result depends only on the values of `s`. */
  lemma SortWordsSetOnly(s: seq<string>, t: seq<string>)
    requires Elems(s) == Elems(t)
    ensures SortWords(s) == SortWords(t)
  {
    WordsSortedUnique(SortWords(s), SortWords(t));
  }

  predicate IntsSorted(s: seq<int>) {
    forall i, j :: 0 <= i < j < |s| ==> s[i] < s[j]
  }

  /** Inserts `x` into a strictly increasing list unless it is already there. */
  function InsertInt(s: seq<int>, x: int): seq<int>
    decreases |s|
  {
    if s == [] then [x]
    else if x == s[0] then s
    else if x < s[0] then [x] + s
    else [s[0]] + InsertInt(s[1..], x)
  }

  /** Insertion adds exactly `x` to the values. */
  lemma {:induction false} InsertIntElems(s: seq<int>, x: int)
    ensures Elems(InsertInt(s, x)) == Elems(s) + {x}
    decreases |s|
  {
    if s != [] && x > s[0] {
      InsertIntElems(s[1..], x);
      assert s == [s[0]] + s[1..];
      assert Elems(s) == {s[0]} + Elems(s[1..]);
      assert Elems([s[0]] + InsertInt(s[1..], x)) == {s[0]} + Elems(InsertInt(s[1..], x));
    } else if s != [] && x < s[0] {
      assert Elems([x] + s) == {x} + Elems(s);
    }
  }

  /** A head below every value of a strictly increasing list keeps it
      strictly increasing. */
  lemma IntsSortedCons(h: int, s: seq<int>)
    requires IntsSorted(s)
    requires forall y :: y in s ==> h < y
    ensures IntsSorted([h] + s)
  {
    var r := [h] + s;
    forall i, j | 0 <= i < j < |r| ensures r[i] < r[j] {
      assert r[j] == s[j - 1] && s[j - 1] in s;
      if i > 0 {
        assert r[i] == s[i - 1];
      }
    }
  }

  /** Insertion keeps a list strictly increasing. */
  lemma {:induction false} InsertIntSorted(s: seq<int>, x: int)
    requires IntsSorted(s)
    ensures IntsSorted(InsertInt(s, x))
    decreases |s|
  {
    if s != [] && x != s[0] {
      forall y | y in s[1..] ensures s[0] < y {
        var j :| 0 <= j < |s[1..]| && s[1..][j] == y;
        assert s[j + 1] == y;
      }
      if x < s[0] {
        IntsSortedCons(x, s);
      } else {
        assert IntsSorted(s[1..]);
        InsertIntSorted(s[1..], x);
        InsertIntElems(s[1..], x);
        var rest := InsertInt(s[1..], x);
        assert forall y :: y in rest ==> y in Elems(rest);
        IntsSortedCons(s[0], rest);
      }
    }
  }

  /** `sorted(set(s))` for integers. */
  function SortInts(s: seq<int>): (r: seq<int>)
    ensures IntsSorted(r)
    ensures Elems(r) == Elems(s)
    decreases |s|
  {
    if s == [] then []
    else
      var init := SortInts(s[..|s| - 1]);
      var x := s[|s| - 1];
      InsertIntSorted(init, x);
      InsertIntElems(init, x);
      LastElems(s);
      InsertInt(init, x)
  }

  /** A strictly increasing list of integers is determined by its values. */
  lemma {:induction false} IntsSortedUnique(a: seq<int>, b: seq<int>)
    requires IntsSorted(a) && IntsSorted(b)
    requires Elems(a) == Elems(b)
    ensures a == b
    decreases |a|
  {
    if a == [] {
      ElemsEmpty(a);
      ElemsEmpty(b);
    } else {
      assert b != [] && a[0] == b[0] by {
        assert a[0] in Elems(b) && b != [] && b[0] in Elems(a);
        var i :| 0 <= i < |a| && a[i] == b[0];
        var j :| 0 <= j < |b| && b[j] == a[0];
      }
      assert Elems(a[1..]) == Elems(b[1..]) by {
        assert Elems(a[1..]) == Elems(a) - {a[0]} by {
          assert a == [a[0]] + a[1..];
        }
        assert Elems(b[1..]) == Elems(b) - {b[0]} by {
          assert b == [b[0]] + b[1..];
        }
      }
      assert IntsSorted(a[1..]) && IntsSorted(b[1..]);
      IntsSortedUnique(a[1..], b[1..]);
      assert a == [a[0]] + a[1..] && b == [b[0]] + b[1..];
    }
  }

  /** Sorting an already strictly increasing list changes nothing. */
  lemma SortIntsSorted(s: seq<int>)
    requires IntsSorted(s)
    ensures SortInts(s) == s
  {
    IntsSortedUnique(SortInts(s), s);
  }
}

=== FILE: text.dfy ===
/** The few Python string operations the pipeline relies on: `str.strip`,
    `sep.join`, `str.split(",")`, decimal digits, `str(n)`, and the prefix
    slice `xs[:n]` (including Python's meaning of a negative `n`). */
module Text {

  /** Characters for which Python's `str.isspace()` holds. */
  predicate IsSpace(c: char) {
    || c == ' ' || c == '\t' || c == '\n' || c == '\r'
    || c == '\U{0B}' || c == '\U{0C}'
    || ('\U{1C}' <= c <= '\U{1F}')
    || c == '\U{85}' || c == '\U{A0}' || c == '\U{1680}'
    || ('\U{2000}' <= c <= '\U{200A}')
    || c == '\U{2028}' || c == '\U{2029}' || c == '\U{202F}' || c == '\U{205F}'
    || c == '\U{3000}'
  }

  predicate AllSpace(s: string) {
    forall k :: 0 <= k < |s| ==> IsSpace(s[k])
  }

  /** `s` with its leading whitespace removed. */
  function TrimStart(s: string): (r: string)
    ensures |r| <= |s| && r == s[|s| - |r|..]
    ensures AllSpace(s[..|s| - |r|])
    ensures r == [] || !IsSpace(r[0])
    decreases |s|
  {
    if s != [] && IsSpace(s[0]) then TrimStart(s[1..]) else s
  }

  /** `s` with its trailing whitespace removed. */
  function TrimEnd(s: string): (r: string)
    ensures |r| <= |s| && r == s[..|r|]
    ensures AllSpace(s[|r|..])
    ensures r == [] || !IsSpace(r[|r| - 1])
    decreases |s|
  {
    if s != [] && IsSpace(s[|s| - 1]) then
      var r := TrimEnd(s[..|s| - 1]);
      assert s[|r|..] == s[..|s| - 1][|r|..] + [s[|s| - 1]];
      r
    else s
  }

  /** Python's `s.strip()`: a contiguous slice of `s` with only whitespace
      before and after it, that neither begins nor ends with whitespace, and
      that is empty exactly when `s` is blank. */
  function Strip(s: string): (r: string)
    ensures exists i :: SliceAt(r, s, i) && AllSpace(s[..i]) && AllSpace(s[i + |r|..])
    ensures r == [] || (!IsSpace(r[0]) && !IsSpace(r[|r| - 1]))
    ensures r == [] <==> AllSpace(s)
  {
    var a := TrimStart(s);
    var r := TrimEnd(a);
    StripSlice(s, a, r);
    StripBlank(s, a, r);
    var i := |s| - |a|;
    assert SliceAt(r, s, i) && AllSpace(s[..i]) && AllSpace(s[i + |r|..]);
    r
  }

  /** `r` occurs in `s` starting at position `i`. */
  predicate SliceAt(r: string, s: string, i: int) {
    0 <= i <= |s| - |r| && r == s[i..i + |r|]
  }

  lemma StripSlice(s: string, a: string, r: string)
    requires |a| <= |s| && a == s[|s| - |a|..] && AllSpace(s[..|s| - |a|])
    requires |r| <= |a| && r == a[..|r|] && AllSpace(a[|r|..])
    ensures SliceAt(r, s, |s| - |a|)
    ensures AllSpace(s[..|s| - |a|]) && AllSpace(s[|s| - |a| + |r|..])
  {
    assert s[|s| - |a| + |r|..] == a[|r|..];
  }

  lemma StripBlank(s: string, a: string, r: string)
    requires a == TrimStart(s) && r == TrimEnd(a)
    ensures r == [] <==> AllSpace(s)
  {
    var i := |s| - |a|;
    if r == [] {
      assert a[|r|..] == a;
      BlankNoHead(a);
      forall k | 0 <= k < |s| ensures IsSpace(s[k]) {
        assert s[k] == s[..i][k];
      }
    } else {
      assert a != [] && a[0] == s[i];
    }
  }

  /** A blank string that does not begin with whitespace is empty. */
  lemma BlankNoHead(a: string)
    requires AllSpace(a)
    requires a == [] || !IsSpace(a[0])
    ensures a == []
  {
  }

  /** A string that neither begins nor ends with whitespace is its own strip. */
  lemma StripFixed(s: string)
    requires s == [] || (!IsSpace(s[0]) && !IsSpace(s[|s| - 1]))
    ensures Strip(s) == s
  {
  }

  /** Python's `sep.join(parts)`. */
  function Join(parts: seq<string>, sep: string): string
    decreases |parts|
  {
    if parts == [] then ""
    else if |parts| == 1 then parts[0]
    else parts[0] + sep + Join(parts[1..], sep)
  }

  /** Python's `s.split(c)` for a one-character separator: never empty, no
      piece contains the separator, and joining the pieces gives `s` back. */
  function Split(s: string, c: char): (r: seq<string>)
    ensures |r| >= 1
    ensures forall k :: 0 <= k < |r| ==> c !in r[k]
    ensures Join(r, [c]) == s
    decreases |s|
  {
    if c !in s then [s]
    else
      var i := FirstIndex(s, c);
      var rest := Split(s[i + 1..], c);
      assert s == s[..i] + [c] + s[i + 1..];
      [s[..i]] + rest
  }

  function FirstIndex(s: string, c: char): (i: nat)
    requires c in s
    ensures i < |s| && s[i] == c && c !in s[..i]
  {
    if s[0] == c then 0
    else
      var j := FirstIndex(s[1..], c);
      assert s[..j + 1] == [s[0]] + s[1..][..j];
      1 + j
  }

  /** Splitting a joined list gives the list back when no piece contains the
      separator. */
  lemma {:induction false} SplitJoin(parts: seq<string>, c: char)
    requires parts != []
    requires forall k :: 0 <= k < |parts| ==> c !in parts[k]
    ensures Split(Join(parts, [c]), c) == parts
    decreases |parts|
  {
    if |parts| > 1 {
      var p := parts[0];
      var tail := Join(parts[1..], [c]);
      var s := Join(parts, [c]);
      assert s == p + [c] + tail;
      assert s[|p|] == c;
      assert s[..|p|] == p;
      assert c in s;
      assert FirstIndex(s, c) == |p|;
      assert s[|p| + 1..] == tail;
      SplitJoin(parts[1..], c);
    }
  }

  /** The line boundaries of Python's `str.splitlines`. */
  predicate IsLineBreak(c: char) {
    || c == '\n' || c == '\r' || c == '\U{0B}' || c == '\U{0C}'
    || ('\U{1C}' <= c <= '\U{1E}')
    || c == '\U{85}' || c == '\U{2028}' || c == '\U{2029}'
  }

  predicate NoLineBreak(s: string) {
    forall k :: 0 <= k < |s| ==> !IsLineBreak(s[k])
  }

  /** The length of the first line of `s`: the position of its first line
      break, or `|s|` when there is none. */
  function LineEnd(s: string): (i: nat)
    ensures i <= |s| && NoLineBreak(s[..i])
    ensures i < |s| ==> IsLineBreak(s[i])
    decreases |s|
  {
    if s == [] || IsLineBreak(s[0]) then 0
    else
      var j := LineEnd(s[1..]);
      assert s[..1 + j] == [s[0]] + s[1..][..j];
      1 + j
  }

  /** Python's `s.splitlines()`: the lines of `s` without their breaks, where
      "\r\n" is one break and a break at the very end starts no further line. */
  function SplitLines(s: string): (r: seq<string>)
    ensures forall k :: 0 <= k < |r| ==> NoLineBreak(r[k])
    ensures r == [] <==> s == []
    ensures NoLineBreak(s) && s != [] ==> r == [s]
    decreases |s|
  {
    if s == [] then []
    else
      var i := LineEnd(s);
      if i == |s| then [s]
      else
        var next := if s[i] == '\r' && i + 1 < |s| && s[i + 1] == '\n' then i + 2 else i + 1;
        [s[..i]] + SplitLines(s[next..])
  }

  /** A line followed by a break ends at that break. */
  lemma {:induction false} LineEndAt(w: string, t: string)
    requires NoLineBreak(w) && t != [] && IsLineBreak(t[0])
    ensures LineEnd(w + t) == |w|
    decreases |w|
  {
    if w == [] {
      assert w + t == t;
    } else {
      assert (w + t)[0] == w[0] && (w + t)[1..] == w[1..] + t;
      assert NoLineBreak(w[1..]) by {
        forall k | 0 <= k < |w| - 1 ensures !IsLineBreak(w[1..][k]) {
          assert w[1..][k] == w[k + 1];
        }
      }
      LineEndAt(w[1..], t);
    }
  }

  /** A break-free line ended by "\n" is the first line of what follows. */
  lemma SplitLinesCons(w: string, tail: string)
    requires NoLineBreak(w)
    ensures SplitLines(w + "\n" + tail) == [w] + SplitLines(tail)
  {
    var s := w + "\n" + tail;
    assert s == w + ("\n" + tail);
    LineEndAt(w, "\n" + tail);
    assert s[|w|] == '\n';
    assert s[..|w|] == w && s[|w| + 1..] == tail;
  }

  /** A line ended by any line break at position `i` is the first line, and
      the lines after the break follow, "\r\n" counting as one break. With
      `SplitLines`'s own ensures for break-free text this determines every
      line. */
  lemma SplitLinesBreak(s: string, i: nat)
    requires i < |s| && NoLineBreak(s[..i]) && IsLineBreak(s[i])
    ensures SplitLines(s)
            == [s[..i]] + SplitLines(if s[i] == '\r' && i + 1 < |s| && s[i + 1] == '\n' then s[i + 2..] else s[i + 1..])
  {
    assert s == s[..i] + s[i..];
    LineEndAt(s[..i], s[i..]);
  }

  /** Writing break-free lines, each ended by "\n", and reading the text back
      with `splitlines` gives the lines again. */
  lemma {:induction false} SplitLinesJoin(lines: seq<string>)
    requires lines != []
    requires forall k :: 0 <= k < |lines| ==> NoLineBreak(lines[k])
    ensures SplitLines(Join(lines, "\n") + "\n") == lines
    decreases |lines|
  {
    var w := lines[0];
    if |lines| == 1 {
      SplitLinesCons(w, "");
      assert Join(lines, "\n") + "\n" == w + "\n" + "";
    } else {
      var tail := Join(lines[1..], "\n") + "\n";
      SplitLinesCons(w, tail);
      assert Join(lines, "\n") + "\n" == w + "\n" + tail;
      SplitLinesJoin(lines[1..]);
      assert lines == [w] + lines[1..];
    }
  }

  /** Stripping a line keeps it free of line breaks. */
  lemma StripNoLineBreak(s: string)
    requires NoLineBreak(s)
    ensures NoLineBreak(Strip(s))
  {
    TrimNoLineBreak(s);
  }

  lemma TrimNoLineBreak(s: string)
    requires NoLineBreak(s)
    ensures NoLineBreak(TrimEnd(TrimStart(s)))
  {
    var a := TrimStart(s);
    SliceNoLineBreak(s, |s| - |a|, |s|);
    SliceNoLineBreak(a, 0, |TrimEnd(a)|);
  }

  lemma SliceNoLineBreak(s: string, i: int, j: int)
    requires 0 <= i <= j <= |s| && NoLineBreak(s)
    ensures NoLineBreak(s[i..j])
  {
    forall k | 0 <= k < j - i ensures !IsLineBreak(s[i..j][k]) {
      assert s[i..j][k] == s[i + k];
    }
  }

  /** Decimal digits accepted by both Python's `str.isdigit` and `int`:
      ASCII and full-width digits. */
  predicate IsDigit(c: char) {
    ('0' <= c <= '9') || ('\U{FF10}' <= c <= '\U{FF19}')
  }

  function DigitValue(c: char): (d: nat)
    requires IsDigit(c)
    ensures d < 10
  {
    if '0' <= c <= '9' then c as int - '0' as int else c as int - '\U{FF10}' as int
  }

  predicate AllDigits(s: string) {
    forall k :: 0 <= k < |s| ==> IsDigit(s[k])
  }

  /** Python's `int(s)` on a string of digits. */
  function DecimalValue(s: string): nat
    requires AllDigits(s)
    decreases |s|
  {
    if s == [] then 0 else DecimalValue(s[..|s| - 1]) * 10 + DigitValue(s[|s| - 1])
  }

  function AsciiDigit(d: nat): (c: char)
    requires d < 10
    ensures '0' <= c <= '9' && DigitValue(c) == d
  {
    ('0' as int + d) as char
  }

  /** Python's `str(n)` for a non-negative integer. */
  function NatToString(n: nat): (r: string)
    ensures |r| >= 1 && AllDigits(r)
    ensures DecimalValue(r) == n
    ensures forall k :: 0 <= k < |r| ==> '0' <= r[k] <= '9'
    ensures r[0] != '0' || n == 0
    decreases n
  {
    if n < 10 then [AsciiDigit(n)]
    else
      var r := NatToString(n / 10) + [AsciiDigit(n % 10)];
      assert r[..|r| - 1] == NatToString(n / 10);
      r
  }

  /** Python's prefix slice `s[:n]`: a negative `n` counts from the end. */
  function PyPrefix<T>(s: seq<T>, n: int): (r: seq<T>)
    ensures |r| <= |s| && r == s[..|r|]
    ensures n >= 0 ==> |r| == if n < |s| then n else |s|
    ensures n < 0 ==> |r| == if |s| + n > 0 then |s| + n else 0
  {
    if n >= 0 then (if n < |s| then s[..n] else s)
    else if |s| + n > 0 then s[..|s| + n]
    else []
  }
}

=== FILE: tokenize.dfy ===
/** The regex chunker of tokenize.py: `JAPANESE_CHUNK_RE.findall(text)`
    returns the maximal runs of Hiragana, Katakana and CJK ideographs, and
    `extract_candidates` keeps the first occurrence of each run. */
module Tokenize {
  import opened Seqs

  /** The character class `[぀-ヿ㐀-䶿一-鿿]`:
      Hiragana and Katakana, CJK Extension A, and the CJK Unified Ideographs. */
  predicate IsJapanese(c: char) {
    || ('\U{3040}' <= c <= '\U{30FF}')
    || ('\U{3400}' <= c <= '\U{4DBF}')
    || ('\U{4E00}' <= c <= '\U{9FFF}')
  }

  predicate AllJapanese(s: string) {
    forall k :: 0 <= k < |s| ==> IsJapanese(s[k])
  }

  /** `text[i..j]` is a maximal run of Japanese characters: non-empty, all
      Japanese, and bounded on each side by a non-Japanese character or by
      the end of the text. */
  predicate IsMaximalRun(text: string, i: int, j: int) {
    && 0 <= i < j <= |text|
    && (forall k :: i <= k < j ==> IsJapanese(text[k]))
    && (i == 0 || !IsJapanese(text[i - 1]))
    && (j == |text| || !IsJapanese(text[j]))
  }

  /** A position where the regex scanner can be: not strictly inside a run. */
  predicate AtBoundary(text: string, k: nat)
    requires k <= |text|
  {
    k == 0 || k == |text| || !IsJapanese(text[k - 1]) || !IsJapanese(text[k])
  }

  /** End of the run of Japanese characters that begins at `i` (the greedy `+`). */
  function RunEnd(text: string, i: nat): (j: nat)
    requires i <= |text|
    ensures i <= j <= |text|
    ensures forall k :: i <= k < j ==> IsJapanese(text[k])
    ensures j == |text| || !IsJapanese(text[j])
    decreases |text| - i
  {
    if i < |text| && IsJapanese(text[i]) then RunEnd(text, i + 1) else i
  }

  datatype Span = Span(start: nat, end: nat)

  /** The spans of the matches found by scanning from position `k` on: each
      is a maximal run, and they come in text order without touching. */
  function RunsFrom(text: string, k: nat): (r: seq<Span>)
    requires k <= |text| && AtBoundary(text, k)
    ensures forall m :: 0 <= m < |r| ==> k <= r[m].start && IsMaximalRun(text, r[m].start, r[m].end)
    ensures forall m, n :: 0 <= m < n < |r| ==> r[m].end < r[n].start
    decreases |text| - k
  {
    if k == |text| then []
    else if !IsJapanese(text[k]) then RunsFrom(text, k + 1)
    else
      var j := RunEnd(text, k);
      var rest := RunsFrom(text, j);
      var r := [Span(k, j)] + rest;
      assert forall m :: 0 < m < |r| ==> r[m] == rest[m - 1];
      r
  }

  /** `JAPANESE_CHUNK_RE.findall(text)`. */
  function Findall(text: string): (r: seq<string>)
    ensures forall m :: 0 <= m < |r| ==> r[m] != [] && AllJapanese(r[m])
  {
    var spans := RunsFrom(text, 0);
    seq(|spans|, m requires 0 <= m < |spans| => text[spans[m].start..spans[m].end])
  }

  /** `extract_candidates(text)` (tokenize.py:9-18). */
  function ExtractCandidates(text: string): (r: seq<string>)
    ensures NoDups(r)
    ensures forall x :: x in r <==> x in Findall(text)
    ensures forall x :: x in r ==> x != [] && AllJapanese(x)
  {
    Dedup(Findall(text))
  }

  lemma {:induction false} RunEndOfMaximal(text: string, i: nat, j: nat)
    requires i <= j <= |text|
    requires forall k :: i <= k < j ==> IsJapanese(text[k])
    requires j == |text| || !IsJapanese(text[j])
    ensures RunEnd(text, i) == j
    decreases j - i
  {
    if i < j {
      RunEndOfMaximal(text, i + 1, j);
    }
  }

  lemma {:induction false} RunsFromComplete(text: string, k: nat, i: nat, j: nat)
    requires k <= |text| && AtBoundary(text, k)
    requires IsMaximalRun(text, i, j) && k <= i
    ensures Span(i, j) in RunsFrom(text, k)
    decreases |text| - k
  {
    if !IsJapanese(text[k]) {
      RunsFromComplete(text, k + 1, i, j);
    } else {
      var e := RunEnd(text, k);
      if i == k {
        RunEndOfMaximal(text, i, j);
      } else {
        RunsFromComplete(text, e, i, j);
      }
    }
  }

  /** Soundness: every match is a maximal run of the text. */
  lemma FindallSound(text: string, m: nat)
    requires m < |Findall(text)|
    ensures exists i, j :: IsMaximalRun(text, i, j) && Findall(text)[m] == text[i..j]
  {
    var spans := RunsFrom(text, 0);
    assert IsMaximalRun(text, spans[m].start, spans[m].end);
  }

  /** Order: the matches are the maximal runs found by the scan, in text
      order, each ending before the next one starts. */
  lemma FindallInOrder(text: string)
    ensures var spans := RunsFrom(text, 0);
            && |Findall(text)| == |spans|
            && (forall m :: 0 <= m < |spans| ==>
                  IsMaximalRun(text, spans[m].start, spans[m].end) && Findall(text)[m] == text[spans[m].start..spans[m].end])
            && (forall m, n :: 0 <= m < n < |spans| ==> spans[m].end < spans[n].start)
  {
  }

  /** Completeness: every maximal run of the text is matched. */
  lemma FindallComplete(text: string, i: nat, j: nat)
    requires IsMaximalRun(text, i, j)
    ensures text[i..j] in Findall(text)
  {
    RunsFromComplete(text, 0, i, j);
    var spans := RunsFrom(text, 0);
    var m :| 0 <= m < |spans| && spans[m] == Span(i, j);
    assert Findall(text)[m] == text[i..j];
  }

  /** The candidates of a text are exactly its distinct maximal Japanese runs,
      listed in order of first occurrence among the matches, which come in
      text order (`FindallInOrder`). */
  lemma ExtractCandidatesRuns(text: string, x: string)
    ensures x in ExtractCandidates(text) <==> exists i, j :: IsMaximalRun(text, i, j) && x == text[i..j]
    ensures FirstSeenOrder(ExtractCandidates(text), Findall(text))
  {
    if x in ExtractCandidates(text) {
      var m :| 0 <= m < |Findall(text)| && Findall(text)[m] == x;
      FindallSound(text, m);
    }
    if exists i, j :: IsMaximalRun(text, i, j) && x == text[i..j] {
      var i, j :| IsMaximalRun(text, i, j) && x == text[i..j];
      FindallComplete(text, i, j);
    }
    DedupFromOrder(Findall(text), {});
  }

  /** Text without any Japanese character yields no candidate. */
  lemma NoJapaneseNoCandidates(text: string)
    requires forall k :: 0 <= k < |text| ==> !IsJapanese(text[k])
    ensures ExtractCandidates(text) == []
  {
    NoJapaneseNoRuns(text, 0);
  }

  lemma {:induction false} NoJapaneseNoRuns(text: string, k: nat)
    requires k <= |text|
    requires forall n :: 0 <= n < |text| ==> !IsJapanese(text[n])
    ensures RunsFrom(text, k) == []
    decreases |text| - k
  {
    if k < |text| {
      NoJapaneseNoRuns(text, k + 1);
    }
  }
}

=== FILE: wrappers.dfy ===
/** Optional values and error-or-value results, used where the source returns
    None or raises ValueError. */
module Wrappers {

  datatype Option<+T> = None | Some(value: T) {
    /** The wrapped value, or `default` when there is none. */
    function GetOr(default: T): T {
      match this
      case Some(v) => v
      case None => default
    }
  }

  datatype Result<+R, +E> = Ok(value: R) | Err(error: E)
}
